=== FILE: README.md ===
# Intellisync website tracking layer, in Dafny

This project models the analytics layer of the Intellisync marketing site and
the three components built on it.

- **`src/utils/analytics.ts`** is the layer itself:
  - `getAnalytics` resolves the Vercel sink `window.va`;
  - `trackEvent` is the single emission point;
  - the `useTracking` helpers;
  - the location effect and the `trackNavigation` / `trackAndNavigate` callbacks of `useNavigationTracking`;
  - the `TrackPageView` component;
  - `useFeatureTracking` and `useConversionTracking`.
- **`src/components/TrackedForm.tsx`**: the submit handler, which masks passwords in the reported fields.
- **`src/components/TrackedButton.tsx`**: the click report, the prop defaults and the rendered content.
- **`src/pages/contact/ContactForm.tsx`**:
  - the field handler;
  - the `mailto:` submission;
  - the status machine.

Everything observable is written as a `Run`: the ordered list of effects and how the call ended. The effects are:

- a sink event;
- a sink page view;
- a development log line;
- a call of one of the page's callbacks.

A call ends normally or throws. The program's inputs are explicit parameters:

- `window` (absent outside a browser);
- `process.env.NODE_ENV`;
- `Date.now()`.

JavaScript object literals with spreads (`{a, ...rest, b}`) are modelled once, in `Events.Literal`, as a left-to-right overlay. Every bag whose literal has a spread is built with it, so "which key wins" is proved rather than assumed. The bags without a spread (`PageViews.PageViewProps`, `Analytics.PagePayload` and the development log bag of `TrackPageView`) are plain maps.

The modules follow the source:

- `Events`: values, bags, object literals, runs.
- `Analytics`: `getAnalytics`, `trackEvent`.
- `Facade`: the `useTracking` helpers.
- `PageViews`: the location effect and `TrackPageView`.
- `Navigation`: `trackNavigation` and `trackAndNavigate`.
- `Goals`: `useFeatureTracking` and `useConversionTracking`.
- `TrackedForm`, `TrackedButton`, `ContactForm`: the three components.
- `UriComponent`: `encodeURIComponent` (section 19.2.6.5 of ECMA-262) and its inverse.
- `Mailto`: a reader for the `mailto:` URIs of section 2 of RFC 6068, so that the contact form's link can be shown to round-trip.
- `TextUtil` and `Optional`: helpers.

Behaviours of the code that a reader might not expect:

- **Non-callable `window.va`.** A truthy `window.va` that is not a function is not treated as absent. `getAnalytics` still hands out a capability, and the call through it throws a `TypeError` (`HookBroken`).
- **`useTracking().trackConversion` emits one event.** It emits a single `Conversion` event with `value` carried even when undefined. Only `useConversionTracking` adds a `goal_completed` event.
- **`TrackedForm` status.** It reports `status: 'success'` whenever the `try` block completes, even when a handler returned `false`. The tracking props may override `status` and `formName`.
- **Loading buttons swallow clicks.** A loading `button` with no `disabled` key among its props is disabled, so a click is neither reported nor passed to `onClick` (`LoadingButtonInert`). A `disabled` passed explicitly as `undefined` is spread after `disabled={isLoading}` and enables the button again (`UndefinedDisabledLive`).
- **Contact form states.** Its `submitting` and `error` states are declared but never entered (`StatusReachable`).

## Model

| member | source | states |
|---|---|---|
| Analytics.GetAnalytics | intellisync-website/src/utils/analytics.ts:28-48 | no capability exactly when there is no window or `window.va` is falsy; the live sink exactly when it is callable; a truthy non-callable hook yields a capability that raises its `TypeError` |
| Analytics.EventPayload | intellisync-website/src/utils/analytics.ts:34-38 | the sink bag holds the caller's keys plus `action`; every caller key keeps its value, and `action` is the event name unless the caller named its own |
| Analytics.PagePayload | intellisync-website/src/utils/analytics.ts:40-46 | a page view carries exactly `page_title`, `page_url`, `page_name`, taken from `title`, `url`, `name` |
| Analytics.TrackEvent | intellisync-website/src/utils/analytics.ts:51-59 | at most one observable output per call, and the call throws exactly when `window.va` is truthy but not callable |
| Analytics.TrackEventLive | intellisync-website/src/utils/analytics.ts:52-54 | with a callable hook the one output is the sink event `{action: name, ...props}` |
| Analytics.TrackEventLogged | intellisync-website/src/utils/analytics.ts:55-58 | without a hook a development build logs `[Analytics] <name>` with the bag |
| Analytics.TrackEventSilent | intellisync-website/src/utils/analytics.ts:51-59 | without a hook outside development nothing is observable |
| Analytics.TrackEventBroken | intellisync-website/src/utils/analytics.ts:28-54 | a truthy non-callable hook emits nothing and the `TypeError` escapes |
| Analytics.TrackEventNoCallbacks | intellisync-website/src/utils/analytics.ts:51-59 | `trackEvent` never calls back into the page |
| Analytics.EmitAllLive | intellisync-website/src/utils/analytics.ts:265-275 | consecutive `trackEvent` calls with a sink deliver every event, in order, one sink call each |
| Analytics.EmitAllLogged | intellisync-website/src/utils/analytics.ts:55-58 | consecutive calls without a hook in development log every event in order |
| Analytics.EmitAllSilent | intellisync-website/src/utils/analytics.ts:51-59 | consecutive calls without a hook outside development are silent |
| Analytics.EmitAllBroken | intellisync-website/src/utils/analytics.ts:265-275 | with a non-callable hook the first call throws, so later events are never attempted |
| Events.LiteralLookup | intellisync-website/src/utils/analytics.ts:97-100 | a key is in an object literal exactly when some member writes it, and its value is the last writer's |
| Events.LiteralAppend | intellisync-website/src/utils/analytics.ts:255-263 | a literal of two member runs is the first run's object overlaid by the second's |
| Events.SpreadThenField | intellisync-website/src/utils/analytics.ts:97-100 | `{...p, k: v}` is `p` with `k` set to `v` |
| Events.ThenAssoc | intellisync-website/src/utils/analytics.ts:69-91 | how consecutive statements are grouped does not change their effects or how the block ends; the first statement's effects always come first, and the block finishes only if every statement does |
| Events.SequencedSingles | intellisync-website/src/utils/analytics.ts:265-275 | runs of one effect each, all finishing, yield their effects in order |
| Events.SequencedPairs | intellisync-website/src/utils/analytics.ts:69-91 | runs of two effects each, all finishing, place run `i`'s at `2i` and `2i+1` |
| PageViews.PageViewProps | intellisync-website/src/utils/analytics.ts:69-80 | the `page_view` bag's title is the document title, or `Untitled Page` when that is empty; its referrer is the document referrer, or `direct`; the URL is path then query, the path, query and fragment are the location's own, and there is no `action` key |
| PageViews.PageViewKeys | intellisync-website/src/utils/analytics.ts:73-80 | the `page_view` bag holds exactly six keys: `page_title`, `page_url`, `page_path`, `page_search`, `page_hash`, `referrer` |
| PageViews.LocationChanged | intellisync-website/src/utils/analytics.ts:69-91 | one location change has at most two outputs and throws exactly when the hook is broken |
| PageViews.LocationChangedLive | intellisync-website/src/utils/analytics.ts:73-90 | with a sink: the `page_view` event, then the `pageview` carrying the full `href`, in that order |
| PageViews.LocationChangedLogged | intellisync-website/src/utils/analytics.ts:55-90 | without a sink in development: one log line and no page view |
| PageViews.LocationChangedSilent | intellisync-website/src/utils/analytics.ts:69-91 | without a sink outside development: nothing |
| PageViews.LocationChangedBroken | intellisync-website/src/utils/analytics.ts:73-84 | a broken hook throws at the `page_view` event, so the page view is never attempted |
| PageViews.SessionLive | intellisync-website/src/utils/analytics.ts:69-91 | N location changes yield N `page_view` events, each with the path active at its change and each followed by that change's `pageview` |
| PageViews.SessionLogged | intellisync-website/src/utils/analytics.ts:69-91 | without a sink in development, one log line per change, in order |
| PageViews.PageViewMounted | intellisync-website/src/utils/analytics.ts:194-209 | `TrackPageView` sends one `pageview` with the path (not the full URL) and the raw title, or one development log line, or nothing; a broken hook throws |
| PageViews.PageViewRendered | intellisync-website/src/utils/analytics.ts:195-209 | a render with the same `name` as the previous one has no effect; on mount or after `name` changed, the effect is exactly `PageViewMounted`: one `pageview` named `name` with a sink, one log line in development without one |
| Navigation.NavigationEvent | intellisync-website/src/utils/analytics.ts:96-103 | the `navigation` event keeps every caller key except `timestamp`, which is always the clock reading |
| Navigation.NavigationRequestShape | intellisync-website/src/utils/analytics.ts:113-119 | `trackAndNavigate`'s `eventProps` override every default; otherwise `from` is the current path, `to` the target, `referrer` the raw referrer, `searchParams` the parsed query |
| Navigation.TrackAndNavigate | intellisync-website/src/utils/analytics.ts:108-122 | the event is emitted before `navigate(to)`, which is the last effect; a broken hook throws before navigating |
| Navigation.TrackAndNavigateLive | intellisync-website/src/utils/analytics.ts:108-122 | with a sink: the whole run is exactly the `navigation` event (the request bag with the clock's `timestamp`) through the sink, then `navigate(to)`, finishing normally |
| Facade.FacadeEventType | intellisync-website/src/utils/analytics.ts:135-182 | every `useTracking` helper's `eventType` is its own category, whatever the extras say |
| Facade.FacadeExtraWins | intellisync-website/src/utils/analytics.ts:135-182 | every extra key other than `eventType` overrides the helper's leading fields |
| Facade.FacadeLeadingSurvives | intellisync-website/src/utils/analytics.ts:135-182 | a leading field survives when no extra and no later field names its key |
| Facade.FacadeHasKey | intellisync-website/src/utils/analytics.ts:135-182 | a helper's bag has exactly the leading keys, the extra keys and `eventType` |
| Facade.ButtonClick | intellisync-website/src/utils/analytics.ts:135-142 | `Button Clicked` with `buttonName` and `section` as defaults the extras may override, `eventType` fixed to `ui_interaction` |
| Facade.FormSubmitted | intellisync-website/src/utils/analytics.ts:145-152 | `Form Submitted` with `formName` and `status` as overridable defaults, `eventType` fixed to `form_submission` |
| Facade.NavigationClicked | intellisync-website/src/utils/analytics.ts:155-162 | `Navigation` with exactly `from`, `to`, `linkType`, `eventType: navigation` |
| Facade.FeatureUsed | intellisync-website/src/utils/analytics.ts:165-172 | `Feature Used` with `featureName` and `action` as overridable defaults, `eventType` fixed to `feature_usage` |
| Facade.FeatureUsedAction | intellisync-website/src/utils/analytics.ts:165-171 | through a live sink, `Feature Used` arrives with the sink's `action` equal to the feature's action (or the extras' own `action`), not the event name |
| Facade.ConversionTracked | intellisync-website/src/utils/analytics.ts:175-182 | one `Conversion` event with `conversionName` and `value` (undefined when absent) as overridable defaults, `eventType` fixed to `conversion` |
| Goals.FeatureUseShape | intellisync-website/src/utils/analytics.ts:228-233 | `feature` is a default the properties may override; `timestamp` and `url`, written after the spread, cannot be overridden |
| Goals.FeatureUse | intellisync-website/src/utils/analytics.ts:224-234 | the `feature_used` event carries the clock reading and the current path whatever the caller's properties say |
| Goals.TrackFeatureUseLive | intellisync-website/src/utils/analytics.ts:224-234 | with a sink, one event reaches it, and its `action` is `feature_used` unless the properties name an `action` |
| Goals.ConversionOverlay | intellisync-website/src/utils/analytics.ts:255-263 | the conversion bag is its three defaults, overlaid by the properties, overlaid by the three stamps |
| Goals.ConversionStamps | intellisync-website/src/utils/analytics.ts:255-263 | the bag holds the caller's keys plus six fixed ones; `timestamp`, `url` and `referrer` always win |
| Goals.ConversionDefaults | intellisync-website/src/utils/analytics.ts:256-259 | `conversion_type`, `value` and `currency: CAD` are defaults the properties override |
| Goals.ConversionEvent | intellisync-website/src/utils/analytics.ts:255-263 | the `conversion` event is stamped from the environment, and an empty referrer reads `direct` |
| Goals.GoalCompleted | intellisync-website/src/utils/analytics.ts:270-274 | `goal_completed` carries `goal` and `value`, both of which the properties may override |
| Goals.Conversions | intellisync-website/src/utils/analytics.ts:266-275 | one call emits the `conversion` event, then a `goal_completed` event exactly when a value is given |
| Goals.TrackConversionLive | intellisync-website/src/utils/analytics.ts:250-276 | with a sink the conversion reaches it first, then the goal completion exactly when a value is given |
| Goals.TrackConversionBroken | intellisync-website/src/utils/analytics.ts:265-275 | a broken hook throws at the conversion event, so the goal completion is never attempted |
| TextUtil.OrElse | intellisync-website/src/utils/analytics.ts:70 | JavaScript's `s or fallback` on strings is `s` when non-empty, else the fallback, so a non-empty fallback never yields an empty string |
| TextUtil.Lower | intellisync-website/src/components/TrackedForm.tsx:56 | lower-casing keeps the length and maps each character (ASCII letters shifted, all else kept) |
| TextUtil.ContainsOccurs | intellisync-website/src/components/TrackedForm.tsx:56 | the left-to-right `includes` scan is true exactly when the needle occurs at some index |
| TextUtil.SplitJoin | intellisync-website/src/pages/contact/ContactForm.tsx:34 | splitting at `&` undoes joining `&`-free pieces |
| TextUtil.JoinSplit | intellisync-website/src/pages/contact/ContactForm.tsx:34 | joining the pieces of a split gives back the string |
| TextUtil.SplitFirstJoin | intellisync-website/src/pages/contact/ContactForm.tsx:34 | splitting at the first `?` of `to?query` yields the recipient and the query when the recipient has no `?` |
| UriComponent.Encode | intellisync-website/src/pages/contact/ContactForm.tsx:26-31 | `encodeURIComponent` output uses only unreserved characters, `%` and upper-case hex digits, and leaves an all-unreserved string unchanged |
| UriComponent.Utf8Inverse | intellisync-website/src/pages/contact/ContactForm.tsx:26-31 | the UTF-8 bytes of any non-ASCII character form a valid shortest sequence that decodes back to that character |
| UriComponent.DecodeEncode | intellisync-website/src/pages/contact/ContactForm.tsx:26-31 | decoding what `encodeURIComponent` produced gives back the original string, for every string |
| UriComponent.DecodePlain | intellisync-website/src/pages/contact/ContactForm.tsx:34 | a component without `%` decodes to itself |
| Mailto.EncodedSeparators | intellisync-website/src/pages/contact/ContactForm.tsx:26-34 | an encoded value never contains `?`, `&`, `=` or `#`, so it cannot break the URI's structure |
| Mailto.ParseHField | intellisync-website/src/pages/contact/ContactForm.tsx:34 | one `name=encoded` field reads back as the name and the unencoded value |
| Mailto.ParseQuery | intellisync-website/src/pages/contact/ContactForm.tsx:34 | a two-field query reads back as both fields, in order |
| Mailto.ParseBuild | intellisync-website/src/pages/contact/ContactForm.tsx:26-34 | a reader of `mailto:to?subject=…&body=…` recovers the recipient and exactly the subject and body, unencoded |
| ContactForm.HandleChange | intellisync-website/src/pages/contact/ContactForm.tsx:14-20 | the named control's field takes the new value; every other field and the status are unchanged |
| ContactForm.SubjectLine | intellisync-website/src/pages/contact/ContactForm.tsx:26 | the chosen subject, or `Contact Form Submission` when none was chosen |
| ContactForm.MailtoUriParses | intellisync-website/src/pages/contact/ContactForm.tsx:26-34 | the link addresses `Chris@intellisync.ca` and carries the subject line and the labelled body exactly |
| ContactForm.HandleSubmit | intellisync-website/src/pages/contact/ContactForm.tsx:22-47 | a submit prevents the native submission, opens one URI, schedules one reset after 5000 ms, clears every field and shows success |
| ContactForm.SubmitOpensMail | intellisync-website/src/pages/contact/ContactForm.tsx:26-34 | the URI a submit opens reads back as the recipient, the subject line and the body |
| ContactForm.Tick | intellisync-website/src/pages/contact/ContactForm.tsx:46 | the timer returns the status to idle and leaves the fields alone |
| ContactForm.StatusReachable | intellisync-website/src/pages/contact/ContactForm.tsx:12-47 | from idle, no sequence of edits, submits and timer firings enters `submitting` or `error`, so the submit button is never disabled |
| ContactForm.SubmitThenTick | intellisync-website/src/pages/contact/ContactForm.tsx:37-46 | after a submit the form is cleared and shows success; after the timer it is back to the initial state |
| TrackedForm.Shown | intellisync-website/src/components/TrackedForm.tsx:55-57 | a file shows as `null`, a password-named text field as `***`, any other text as itself |
| TrackedForm.RedactKeys | intellisync-website/src/components/TrackedForm.tsx:51-58 | the reported record has exactly the submitted field names |
| TrackedForm.RedactLastWins | intellisync-website/src/components/TrackedForm.tsx:54-58 | each field name shows the last entry of that name, masked or nulled as `Shown` says |
| TrackedForm.PasswordMasked | intellisync-website/src/components/TrackedForm.tsx:56 | a field named `Password` holding `secret123` is reported as `***` |
| TrackedForm.Call | intellisync-website/src/components/TrackedForm.tsx:28-47 | a present handler is called once; it throws exactly when it throws or its thenable rejects; `undefined` resolution counts as `true`, a non-boolean return as no opinion |
| TrackedForm.CombinedFalse | intellisync-website/src/components/TrackedForm.tsx:25-47 | the submission resolves `false` exactly when one of the handlers said `false` |
| TrackedForm.SuccessEventShape | intellisync-website/src/components/TrackedForm.tsx:60-63 | the success report's keys are exactly the tracking props' keys plus `formFields`, `formName`, `status` and `eventType`; every tracking prop except `formFields` and `eventType` reaches it unchanged; it carries the masked fields as `formFields`, `eventType: form_submission`, and `status: success` and the form's name unless the tracking props name their own |
| TrackedForm.ErrorEventShape | intellisync-website/src/components/TrackedForm.tsx:66-71 | the failure report's keys are exactly the tracking props' keys plus `error`, `formName`, `status` and `eventType`; every tracking prop except `error` and `eventType` reaches it unchanged; it carries the error's message (`Unknown error` for a non-`Error`), and `status: error` and the form's name unless overridden |
| TrackedForm.Submit | intellisync-website/src/components/TrackedForm.tsx:21-22 | native submission is prevented before anything else happens |
| TrackedForm.CallOrder | intellisync-website/src/components/TrackedForm.tsx:28-48 | `onSubmit` runs before `onTrackedSubmit`, each at most once, and `onTrackedSubmit` not at all when `onSubmit` fails |
| TrackedForm.HandleSubmitCompletes | intellisync-website/src/components/TrackedForm.tsx:21-65 | corrected handler: when no handler fails and the sink works: the handler calls, then one success report, resolving with the combined result |
| TrackedForm.HandleSubmitFails | intellisync-website/src/components/TrackedForm.tsx:66-73 | corrected handler: when a handler fails: the calls so far, one failure report, and the handler's own exception thrown on |
| TrackedForm.HandleSubmitBrokenSink | intellisync-website/src/components/TrackedForm.tsx:60-73 | corrected handler: a sink that raises makes the submission throw its `TypeError`, replacing any handler error |
| TrackedForm.AsWrittenFails | intellisync-website/src/components/TrackedForm.tsx:66-73 | as written: when a handler fails, the calls so far, one failure report, and the handler's own exception thrown on |
| TrackedForm.AsWrittenBrokenSink | intellisync-website/src/components/TrackedForm.tsx:60-73 | as written: a sink that raises makes the submission throw its `TypeError`, replacing any handler error or failed field read |
| TrackedForm.AsWrittenWithoutAwait | intellisync-website/src/components/TrackedForm.tsx:29-52 | when no thenable is awaited, the code as written and the corrected handler agree |
| TrackedForm.AsWrittenAfterAwait | intellisync-website/src/components/TrackedForm.tsx:31-52 | as written, after any awaited handler the field read throws: a failure report replaces the success report and the submission rejects |
| TrackedForm.AsWrittenAsyncSubmit | intellisync-website/src/components/TrackedForm.tsx:29-52 | an async `onSubmit` resolving `true` makes the code as written report an error and reject |
| TrackedForm.CorrectedAsyncSubmit | intellisync-website/src/components/TrackedForm.tsx:21-65 | the same submission through the corrected handler reports success and resolves `true` |
| TrackedButton.WithDefaults | intellisync-website/src/components/TrackedButton.tsx:60-70 | omitted props default to a `button`, variant and size `default`, no tracking props, not loading, icon on the left; every prop given is kept as given, and the props without a default pass through unchanged |
| TrackedButton.LoadingPropsInert | intellisync-website/src/components/TrackedButton.tsx:60-70 | passing `isLoading` to a button with no `disabled` key makes a click report nothing and call no `onClick`, and renders the spinner then the children |
| TrackedButton.ClickBagShape | intellisync-website/src/components/TrackedButton.tsx:78-83 | `element`, `variant` and `text`, written after the tracking props, always win; every other tracking key survives |
| TrackedButton.ClickEventShape | intellisync-website/src/components/TrackedButton.tsx:77-83 | the click report names the rendered element, the variant and the string children (else empty), is a `ui_interaction`, and lets the tracking props supply `buttonName`, `section` and every other key |
| TrackedButton.HandleClick | intellisync-website/src/components/TrackedButton.tsx:77-88 | the report is made before `onClick`, which runs once if given; a raising sink stops before `onClick` |
| TrackedButton.ClickLive | intellisync-website/src/components/TrackedButton.tsx:77-88 | with a sink, a click on an enabled control is exactly one report and then the `onClick` call |
| TrackedButton.LoadingButtonInert | intellisync-website/src/components/TrackedButton.tsx:128-134 | a loading `button` with no `disabled` key among its props neither reports nor calls `onClick` |
| TrackedButton.UndefinedDisabledLive | intellisync-website/src/components/TrackedButton.tsx:128-134 | a `button` given `disabled={undefined}` is enabled even while loading: with a sink, a click is reported and then `onClick` runs |
| TrackedButton.Content | intellisync-website/src/components/TrackedButton.tsx:99-110 | the children show exactly once; while loading, the spinner and then the children; otherwise an icon, when present, on its chosen side of the children and nothing else |

## Left out

- Class names and styling (`buttonVariants`, `buttonSizes`, `cn`, motion props): they have no observable behaviour beyond rendering.
- `ref` forwarding and the props passed through to the DOM element, apart from `disabled`.
- The browser's own effects are left to the host:
  - following `window.location.href` to a `mailto:` link becomes the `OpenUri` effect;
  - `setTimeout` becomes `ScheduleReset` followed by the `TimerFired` event;
  - `navigate(to, options)` becomes a recorded `Navigate(to)` callback. The `replace`/`state` options are not modelled.
- `URLSearchParams`: the parsed query is an input (`Location.searchParams`) rather than parsed from `search`.
- TrackedForm.RedactKeys, TrackedForm.RedactLastWins: a field named `__proto__` is kept as an ordinary key. In JavaScript, assigning a string to `formData['__proto__']` hits the `Object.prototype` setter and creates no own key, so `JSON.stringify` omits it. Assigning `null` (a file) replaces the prototype, after which later `__proto__` entries do become own keys.
- Numbers (the `Num` case of `Events.Value`) are mathematical reals. `NaN` and the infinities cannot be represented; `JSON.stringify` would write them as `null`.
- `JSON.stringify` of the masked record: the report carries the record as an opaque `Json` value.
- TextUtil.Lower: lower-cases ASCII letters only. For the `password` test this agrees with JavaScript's `toLowerCase`. The only non-ASCII characters that lower-case into ASCII are U+0130 (to `i` plus a combining dot) and U+212A (to `k`), and neither `i` nor `k` occurs in `password`. Lower-cased field names are used for nothing else.
- UriComponent.Encode: strings are sequences of Unicode scalar values. JavaScript's lone UTF-16 surrogates, on which `encodeURIComponent` throws `URIError`, cannot be written.
- Mailto.Parse: it compares the scheme and header names case-sensitively and does not reject `#`. It reads only what the contact form writes.
- TrackedForm.Call: a thenable that settles with something other than a boolean or `undefined` is not modelled. `onTrackedSubmit`'s type rules that out, but `onSubmit`'s type is React's `FormEventHandler`, which returns `void` and so accepts a function returning any promise. Such an `onSubmit` settling with `null` or a number would make the handler resolve with that value.
- The text of the `TypeError` thrown by `new FormData(null)` (`TrackedForm.DetachedForm`) is engine-specific. The model uses one fixed message.
- `onClick` throwing inside `TrackedButton.HandleClick` is not modelled. It would propagate to React unchanged.
- TrackedButton.Content: `icon={0}` would render `0`. The model treats the icon as present or absent.
- ContactForm.HandleChange: it takes one of the four named controls. An input with any other `name` would add a key the form never reads.
- `getAnalytics` agreeing on repeated calls needs no lemma: `GetAnalytics` is a function of the environment alone.

## Findings

| source | as written | input that shows it | evidently intended | confidence | as-written member | corrected member |
|---|---|---|---|---|---|---|
| intellisync-website/src/components/TrackedForm.tsx:31-52 | the fields are read with `new FormData(e.currentTarget)` after the handlers' thenables have been awaited. React clears `currentTarget` once the synchronous dispatch ends, so the read throws a `TypeError`. | `onSubmit` returns a promise resolving `true`, with a working sink | the form is captured before the first `await`. The submission is reported as a success with its masked fields and resolves `true`. | not executed | TrackedForm.HandleSubmitAsWritten (TrackedForm.AsWrittenAsyncSubmit, TrackedForm.AsWrittenAfterAwait) | TrackedForm.HandleSubmit (TrackedForm.CorrectedAsyncSubmit, TrackedForm.HandleSubmitCompletes) |

=== FILE: analytics.dfy ===
/**
 * The sink resolver and the single emission point of the tracking layer
 * (`getAnalytics` and `trackEvent` in `src/utils/analytics.ts`).
 */
module Analytics {
  import opened Optional
  import opened Events

  /**
   * What `window.va` holds: nothing truthy, the analytics function, or a truthy
   * value that is not callable (calling it raises a `TypeError` whose message the
   * JavaScript engine chooses).
   */
  datatype Hook = Unset | Callable | NotCallable(typeError: string)

  /** `window.location`, with the query string as the host's URL parser reads it. */
  datatype Location = Location(
    pathname: string,
    search: string,
    hash: string,
    href: string,
    /** `Object.fromEntries(new URLSearchParams(search))` */
    searchParams: map<string, string>)

  /** The host facts the tracking layer reads from `window` and `document`. */
  datatype Browser = Browser(
    va: Hook,
    /** `document.title` */
    title: string,
    /** `document.referrer` */
    referrer: string,
    location: Location)

  /**
   * Everything a tracking call may observe: the window (absent outside a
   * browser), `process.env.NODE_ENV`, and `Date.now()`.
   */
  datatype Env = Env(window: Option<Browser>, nodeEnv: string, now: int)

  /** The environment of React effects and handlers, which only run in a browser. */
  type PageEnv = env: Env | env.window.Some?
    witness Env(Some(Browser(Unset, "", "", Location("", "", "", "", map[]))), "", 0)

  /** The capability `getAnalytics` hands out; each call goes through `window.va?.(...)`. */
  datatype Sink = LiveSink | BrokenSink(typeError: string)

  predicate HookCallable(env: Env) {
    env.window.Some? && env.window.value.va.Callable?
  }

  predicate HookBroken(env: Env) {
    env.window.Some? && env.window.value.va.NotCallable?
  }

  predicate NoHook(env: Env) {
    env.window.None? || env.window.value.va.Unset?
  }

  predicate Development(env: Env) {
    env.nodeEnv == "development"
  }

  /**
   * `getAnalytics`: no capability exactly when there is no window or `window.va`
   * is falsy. It reads the environment and nothing else, so two calls in the same
   * environment agree.
   */
  function GetAnalytics(env: Env): (r: Option<Sink>)
    ensures r.None? <==> NoHook(env)
    ensures r == Some(LiveSink) <==> HookCallable(env)
    ensures HookBroken(env) ==> r == Some(BrokenSink(env.window.value.va.typeError))
  {
    match env.window
    case None => None
    case Some(w) =>
      match w.va
      case Unset => None
      case Callable => Some(LiveSink)
      case NotCallable(m) => Some(BrokenSink(m))
  }

  /** `{action: eventName, ...properties}` */
  function EventPayload(name: string, props: Props): (p: Props)
    ensures p.Keys == props.Keys + {"action"}
    ensures forall k :: k in props ==> p[k] == props[k]
    ensures "action" !in props ==> p["action"] == Str(name)
  {
    var ms := [Field("action", Str(name)), Spread(props)];
    assert ms[..1] == [Field("action", Str(name))];
    assert Literal(ms[..1]) == map["action" := Str(name)];
    Literal(ms)
  }

  /** `{page_title, page_url, page_name}` as `page()` renames its parameters. */
  function PagePayload(name: string, url: string, title: string): (p: Props)
    ensures p.Keys == {"page_title", "page_url", "page_name"}
    ensures p["page_name"] == Str(name) && p["page_url"] == Str(url) && p["page_title"] == Str(title)
  {
    map["page_title" := Str(title), "page_url" := Str(url), "page_name" := Str(name)]
  }

  /** Calling `window.va` with a mode and a payload through the resolved capability. */
  function CallSink(s: Sink, a: Action): (r: Run<()>)
    ensures |r.trace| <= 1 && (r.outcome.Threw? <==> s.BrokenSink?)
    ensures r.outcome.Done? ==> r.trace == [a]
    ensures r.outcome.Threw? ==> r.trace == [] && r.outcome.fault == ErrorObject(s.typeError)
  {
    match s
    case LiveSink => Run([a], Done(()))
    case BrokenSink(m) => Run([], Threw(ErrorObject(m)))
  }

  /** `analytics.track(eventName, properties)` */
  function Track(s: Sink, name: string, props: Props): Run<()> {
    CallSink(s, SinkEvent(EventPayload(name, props)))
  }

  /** `analytics.page({name, url, title})` */
  function Page(s: Sink, name: string, url: string, title: string): Run<()> {
    CallSink(s, SinkPage(PagePayload(name, url, title)))
  }

  /** The development log line of `trackEvent`. */
  function LogLine(name: string): string {
    "[Analytics] " + name
  }

  /**
   * `trackEvent`: each call has at most one observable output, and it raises
   * only when `window.va` is truthy but not callable.
   */
  function TrackEvent(env: Env, name: string, props: Props): (r: Run<()>)
    ensures |r.trace| <= 1
    ensures r.outcome.Threw? <==> HookBroken(env)
  {
    match GetAnalytics(env)
    case Some(s) => Track(s, name, props)
    case None =>
      if Development(env) then Run([DevLog(LogLine(name), props)], Done(())) else Quiet()
  }

  /** With a callable hook the one output is the sink event `{action: name, ...props}`. */
  lemma TrackEventLive(env: Env, name: string, props: Props)
    requires HookCallable(env)
    ensures TrackEvent(env, name, props) == Run([SinkEvent(EventPayload(name, props))], Done(()))
  {
  }

  /** Without a hook a development build logs `[Analytics] <name>` with the bag. */
  lemma TrackEventLogged(env: Env, name: string, props: Props)
    requires NoHook(env) && Development(env)
    ensures TrackEvent(env, name, props) == Run([DevLog(LogLine(name), props)], Done(()))
  {
  }

  /** Without a hook outside development the call is silent. */
  lemma TrackEventSilent(env: Env, name: string, props: Props)
    requires NoHook(env) && !Development(env)
    ensures TrackEvent(env, name, props) == Run([], Done(()))
  {
  }

  /** A truthy, non-callable hook: nothing is emitted and the `TypeError` escapes. */
  lemma TrackEventBroken(env: Env, name: string, props: Props)
    requires HookBroken(env)
    ensures TrackEvent(env, name, props) == Run([], Threw(ErrorObject(env.window.value.va.typeError)))
  {
  }

  /** `trackEvent` never calls back into the page: its output is a sink call or a log line. */
  lemma TrackEventNoCallbacks(env: Env, name: string, props: Props)
    ensures forall i :: 0 <= i < |TrackEvent(env, name, props).trace| ==> !TrackEvent(env, name, props).trace[i].Invoke?
  {
  }

  function Emit(env: Env, e: Envelope): Run<()> {
    TrackEvent(env, e.name, e.props)
  }

  /** Several `trackEvent` calls in a row; a raising call ends the sequence. */
  function EmitAll(env: Env, es: seq<Envelope>): Run<()> {
    Sequenced(seq(|es|, i requires 0 <= i < |es| => Emit(env, es[i])))
  }

  /** With a callable hook every envelope reaches the sink, in order. */
  lemma EmitAllLive(env: Env, es: seq<Envelope>)
    requires HookCallable(env)
    ensures EmitAll(env, es).outcome == Done(())
    ensures |EmitAll(env, es).trace| == |es|
    ensures forall i :: 0 <= i < |es| ==>
      EmitAll(env, es).trace[i] == SinkEvent(EventPayload(es[i].name, es[i].props))
  {
    var runs := seq(|es|, i requires 0 <= i < |es| => Emit(env, es[i]));
    forall i | 0 <= i < |es|
      ensures runs[i] == Run([SinkEvent(EventPayload(es[i].name, es[i].props))], Done(()))
    {
      TrackEventLive(env, es[i].name, es[i].props);
    }
    SequencedSingles(runs);
  }

  /** Without a hook, a development build logs every envelope in order. */
  lemma EmitAllLogged(env: Env, es: seq<Envelope>)
    requires NoHook(env) && Development(env)
    ensures EmitAll(env, es).outcome == Done(())
    ensures |EmitAll(env, es).trace| == |es|
    ensures forall i :: 0 <= i < |es| ==>
      EmitAll(env, es).trace[i] == DevLog(LogLine(es[i].name), es[i].props)
  {
    var runs := seq(|es|, i requires 0 <= i < |es| => Emit(env, es[i]));
    forall i | 0 <= i < |es|
      ensures runs[i] == Run([DevLog(LogLine(es[i].name), es[i].props)], Done(()))
    {
      TrackEventLogged(env, es[i].name, es[i].props);
    }
    SequencedSingles(runs);
  }

  /** Without a hook outside development nothing is observable. */
  lemma EmitAllSilent(env: Env, es: seq<Envelope>)
    requires NoHook(env) && !Development(env)
    ensures EmitAll(env, es) == Run([], Done(()))
  {
    var runs := seq(|es|, i requires 0 <= i < |es| => Emit(env, es[i]));
    forall i | 0 <= i < |es|
      ensures runs[i] == Run([], Done(()))
    {
      TrackEventSilent(env, es[i].name, es[i].props);
    }
    SequencedQuiet(runs);
  }

  /** A non-callable hook makes the first call raise, so nothing is emitted at all. */
  lemma EmitAllBroken(env: Env, es: seq<Envelope>)
    requires HookBroken(env) && |es| > 0
    ensures EmitAll(env, es) == Run([], Threw(ErrorObject(env.window.value.va.typeError)))
  {
    TrackEventBroken(env, es[0].name, es[0].props);
  }
}

=== FILE: contact_form.dfy ===
/**
 * The contact form: four text fields and a submit status. Submitting hands a
 * `mailto:` URI to the browser, reports success at once and clears the
 * fields; a timer later returns the status to idle.
 */
module ContactForm {
  import opened Optional
  import Events
  import opened TextUtil
  import opened UriComponent
  import opened Mailto

  /** The four controls, by their `name` attribute. */
  datatype Control = NameInput | EmailInput | SubjectSelect | MessageArea

  datatype FormData = FormData(name: string, email: string, subject: string, message: string)

  datatype Status = Idle | Submitting | Success | Failed

  datatype State = State(data: FormData, status: Status)

  const Recipient := "Chris@intellisync.ca"
  const DefaultSubject := "Contact Form Submission"
  const Cleared := FormData("", "", "", "")
  const Initial := State(Cleared, Idle)
  /** Milliseconds until the success message is withdrawn. */
  const ResetDelay := 5000

  function Get(d: FormData, c: Control): string {
    match c
    case NameInput => d.name
    case EmailInput => d.email
    case SubjectSelect => d.subject
    case MessageArea => d.message
  }

  /** `handleChange`: the control's field takes the new value. */
  function HandleChange(s: State, c: Control, value: string): (r: State)
    ensures Get(r.data, c) == value
    ensures forall other :: other != c ==> Get(r.data, other) == Get(s.data, other)
    ensures r.status == s.status
  {
    match c
    case NameInput => s.(data := s.data.(name := value))
    case EmailInput => s.(data := s.data.(email := value))
    case SubjectSelect => s.(data := s.data.(subject := value))
    case MessageArea => s.(data := s.data.(message := value))
  }

  /** The mail body: the name, the e-mail address and the message under fixed labels. */
  function Body(d: FormData): string {
    "Name: " + d.name + "\n\nEmail: " + d.email + "\n\nMessage:\n" + d.message
  }

  /** The subject line: the chosen subject, or the default when none was chosen. */
  function SubjectLine(d: FormData): (r: string)
    ensures d.subject != "" ==> r == d.subject
    ensures d.subject == "" ==> r == DefaultSubject
  {
    OrElse(d.subject, DefaultSubject)
  }

  function MailtoUri(d: FormData): string {
    Build(Recipient, SubjectLine(d), Body(d))
  }

  /** The recipient address needs no escaping. */
  lemma RecipientPlain()
    ensures '?' !in Recipient && '%' !in Recipient
  {
  }

  /**
   * A mail client reading the URI finds the recipient, then the subject line
   * and the body exactly as composed, whatever characters they contain.
   */
  lemma MailtoUriParses(d: FormData)
    ensures Parse(MailtoUri(d)) == Some(Mailto(Recipient, [("subject", SubjectLine(d)), ("body", Body(d))]))
  {
    RecipientPlain();
    ParseBuild(Recipient, SubjectLine(d), Body(d));
  }

  /** What `handleSubmit` asks of the browser, in order. */
  datatype Effect = Invoked(callback: Events.Callback) | OpenUri(uri: string) | ScheduleReset(delay: int)

  /** `handleSubmit`: the form is cleared and shows success at once; the browser opens the URI, then a reset is scheduled. */
  function HandleSubmit(s: State): (r: (State, seq<Effect>))
    ensures r.0 == State(Cleared, Success)
    ensures |r.1| == 3 && r.1[0] == Invoked(Events.PreventDefault) && r.1[1].OpenUri? && r.1[2] == ScheduleReset(ResetDelay)
  {
    (State(Cleared, Success), [Invoked(Events.PreventDefault), OpenUri(MailtoUri(s.data)), ScheduleReset(ResetDelay)])
  }

  /** The URI a submit opens carries the recipient, then the subject line and the body exactly as composed. */
  lemma SubmitOpensMail(s: State)
    ensures Parse(HandleSubmit(s).1[1].uri) ==
      Some(Mailto(Recipient, [("subject", SubjectLine(s.data)), ("body", Body(s.data))]))
  {
    MailtoUriParses(s.data);
  }

  /** The reset timer fires. */
  function Tick(s: State): (r: State)
    ensures r.status == Idle && r.data == s.data
  {
    s.(status := Idle)
  }

  datatype Event = Change(control: Control, value: string) | Submit | TimerFired

  function Step(s: State, e: Event): State {
    match e
    case Change(c, v) => HandleChange(s, c, v)
    case Submit => HandleSubmit(s).0
    case TimerFired => Tick(s)
  }

  function Replay(s: State, events: seq<Event>): State
    decreases |events|
  {
    if |events| == 0 then s else Replay(Step(s, events[0]), events[1..])
  }

  /** The submit button is disabled only while submitting. */
  predicate ButtonDisabled(s: State) {
    s.status == Submitting
  }

  /**
   * From the initial state, whatever the user does, the status is idle or
   * success: `submitting` and `error` are never entered, so the button is never
   * disabled and the error message never shows.
   */
  lemma {:induction false} StatusReachable(s: State, events: seq<Event>)
    requires s.status == Idle || s.status == Success
    ensures Replay(s, events).status == Idle || Replay(s, events).status == Success
    ensures !ButtonDisabled(Replay(s, events))
    decreases |events|
  {
    if |events| > 0 {
      StatusReachable(Step(s, events[0]), events[1..]);
    }
  }

  /** After a submit the fields are empty and the success message shows until the timer fires. */
  lemma SubmitThenTick(s: State)
    ensures Replay(s, [Submit]) == State(Cleared, Success)
    ensures Replay(s, [Submit, TimerFired]) == Initial
  {
    assert [Submit, TimerFired][1..] == [TimerFired];
  }
}

=== FILE: events.dfy ===
/**
 * Property bags, object literals with spread, and the observable trace of a
 * tracking call: what reaches the analytics sink, the development log, and the
 * caller-supplied callbacks, in order, together with how the call ended.
 */
module Events {
  import opened Optional

  /** The values a tracked property may take. */
  datatype Value =
    | Str(s: string)
    | Num(x: real)
    | Bool(b: bool)
    | Null
    | Undefined
      /** A nested `Record<string, string>`, as carried by `searchParams`. */
    | StrDict(entries: map<string, string>)
      /** `JSON.stringify` of a `Record<string, string | null>`; the serialiser itself is opaque. */
    | Json(fields: map<string, Option<string>>)

  type Props = map<string, Value>

  /** The bag holds `k` with value `v`. */
  predicate Holds(p: Props, k: string, v: Value) {
    k in p && p[k] == v
  }

  /** One member of an object literal: `key: value` or `...spread`. */
  datatype Member = Field(key: string, value: Value) | Spread(entries: Props)

  function MemberProps(m: Member): Props {
    match m
    case Field(k, v) => map[k := v]
    case Spread(p) => p
  }

  /**
   * The object an object literal builds: members are applied left to right and a
   * later member overwrites the keys an earlier one wrote.
   */
  function Literal(ms: seq<Member>): Props
    decreases |ms|
  {
    if |ms| == 0 then map[] else Literal(ms[..|ms| - 1]) + MemberProps(ms[|ms| - 1])
  }

  /** Appending a member overlays what it writes on the object built so far. */
  lemma LiteralSnoc(ms: seq<Member>, m: Member)
    ensures Literal(ms + [m]) == Literal(ms) + MemberProps(m)
  {
    assert (ms + [m])[..|ms|] == ms;
  }

  /** A three-member literal overlays its members in order. */
  lemma Literal3(a: Member, b: Member, c: Member)
    ensures Literal([a, b, c]) == MemberProps(a) + MemberProps(b) + MemberProps(c)
  {
    var ms := [a, b, c];
    assert ms[..2] == [a, b];
    assert ms[..2][..1] == [a];
    assert ms[..2][..1][..0] == [];
    assert Literal([a]) == MemberProps(a);
  }

  /** A four-member literal overlays its members in order. */
  lemma Literal4(a: Member, b: Member, c: Member, d: Member)
    ensures Literal([a, b, c, d]) == MemberProps(a) + MemberProps(b) + MemberProps(c) + MemberProps(d)
  {
    assert [a, b, c, d][..3] == [a, b, c];
    Literal3(a, b, c);
  }

  /** Overlaying is associative. */
  lemma OverlayAssoc(a: Props, b: Props, c: Props)
    ensures a + (b + c) == (a + b) + c
  {
  }

  /** Concatenating two literals' members overlays the second object on the first. */
  lemma {:induction false} LiteralAppend(ms: seq<Member>, ns: seq<Member>)
    ensures Literal(ms + ns) == Literal(ms) + Literal(ns)
    decreases |ns|
  {
    if |ns| == 0 {
      assert ms + ns == ms;
      assert Literal(ms) + map[] == Literal(ms);
    } else {
      var init, last := ns[..|ns| - 1], ns[|ns| - 1];
      assert ms + ns == (ms + init) + [last];
      assert init + [last] == ns;
      LiteralSnoc(ms + init, last);
      LiteralSnoc(init, last);
      LiteralAppend(ms, init);
      OverlayAssoc(Literal(ms), Literal(init), MemberProps(last));
    }
  }

  /** A literal with a single spread between leading and trailing members. */
  lemma LiteralAround(pre: seq<Member>, p: Props, post: seq<Member>)
    ensures Literal(pre + [Spread(p)] + post) == Literal(pre) + p + Literal(post)
  {
    LiteralAppend(pre + [Spread(p)], post);
    LiteralSnoc(pre, Spread(p));
  }

  /** Three fields with distinct keys build the map of those three entries. */
  lemma LiteralFields3(a: string, va: Value, b: string, vb: Value, c: string, vc: Value)
    requires a != b && b != c && a != c
    ensures Literal([Field(a, va), Field(b, vb), Field(c, vc)]) == map[a := va, b := vb, c := vc]
  {
    Literal3(Field(a, va), Field(b, vb), Field(c, vc));
  }

  /** `{...p, k: v}` is `p` with `k` set to `v`. */
  lemma SpreadThenField(p: Props, k: string, v: Value)
    ensures Literal([Spread(p), Field(k, v)]) == p[k := v]
  {
    var ms := [Spread(p), Field(k, v)];
    assert ms[..1] == [Spread(p)];
    assert [Spread(p)][..0] == [];
    assert Literal(ms[..1]) == p;
  }

  /** Member `i` writes `k` and no later member does. */
  ghost predicate LastWriter(ms: seq<Member>, i: int, k: string) {
    && 0 <= i < |ms|
    && k in MemberProps(ms[i])
    && forall j :: i < j < |ms| ==> k !in MemberProps(ms[j])
  }

  /**
   * The reference reading of spread: a key is present exactly when some member
   * writes it, and its value is the one written by the last member that does.
   */
  lemma {:induction false} LiteralLookup(ms: seq<Member>, k: string)
    ensures k in Literal(ms) <==> exists i :: 0 <= i < |ms| && k in MemberProps(ms[i])
    ensures forall i :: LastWriter(ms, i, k) ==> k in Literal(ms) && Literal(ms)[k] == MemberProps(ms[i])[k]
    decreases |ms|
  {
    if |ms| > 0 {
      var init := ms[..|ms| - 1];
      LiteralLookup(init, k);
      forall i | LastWriter(ms, i, k)
        ensures k in Literal(ms) && Literal(ms)[k] == MemberProps(ms[i])[k]
      {
        if i < |ms| - 1 {
          assert LastWriter(init, i, k);
        }
      }
      if k in Literal(ms) && k !in MemberProps(ms[|ms| - 1]) {
        var i :| 0 <= i < |init| && k in MemberProps(init[i]);
        assert ms[i] == init[i];
      }
      if exists i :: 0 <= i < |ms| && k in MemberProps(ms[i]) {
        var i :| 0 <= i < |ms| && k in MemberProps(ms[i]);
        if i < |ms| - 1 {
          assert init[i] == ms[i];
        }
      }
    }
  }

  /** The keys of a literal are the keys its members write. */
  lemma {:induction false} LiteralKeys(ms: seq<Member>)
    ensures Literal(ms).Keys == set i, k | 0 <= i < |ms| && k in MemberProps(ms[i]) :: k
    decreases |ms|
  {
    if |ms| > 0 {
      LiteralKeys(ms[..|ms| - 1]);
      var init := ms[..|ms| - 1];
      assert forall i :: 0 <= i < |init| ==> init[i] == ms[i];
    }
  }

  /** The unit every tracking call hands to `trackEvent`: a name and its properties. */
  datatype Envelope = Envelope(name: string, props: Props)

  /** A field no later member overwrites ends up in the object. */
  lemma LiteralFieldWins(ms: seq<Member>, i: int)
    requires 0 <= i < |ms| && ms[i].Field?
    requires forall j :: i < j < |ms| ==> ms[i].key !in MemberProps(ms[j])
    ensures ms[i].key in Literal(ms) && Literal(ms)[ms[i].key] == ms[i].value
  {
    LiteralLookup(ms, ms[i].key);
    assert LastWriter(ms, i, ms[i].key);
  }

  /** A spread key no later member overwrites keeps the spread value. */
  lemma LiteralSpreadWins(ms: seq<Member>, i: int, k: string)
    requires 0 <= i < |ms| && ms[i].Spread? && k in ms[i].entries
    requires forall j :: i < j < |ms| ==> k !in MemberProps(ms[j])
    ensures k in Literal(ms) && Literal(ms)[k] == ms[i].entries[k]
  {
    LiteralLookup(ms, k);
    assert LastWriter(ms, i, k);
  }

  /** Why a call did not finish normally. */
  datatype Fault =
      /** An `Error` instance (a `TypeError` included) with its message. */
    | ErrorObject(message: string)
      /** A thrown value that is not an `Error`. */
    | OtherValue

  /** The callbacks the tracking layer invokes on behalf of the page. */
  datatype Callback = PreventDefault | OnClick | OnSubmit | OnTrackedSubmit | Navigate(to: string)

  /** One observable effect. */
  datatype Action =
      /** `window.va('event', payload)` */
    | SinkEvent(payload: Props)
      /** `window.va('pageview', payload)` */
    | SinkPage(payload: Props)
      /** `console.log(line, payload)` in development builds */
    | DevLog(line: string, payload: Props)
      /** a caller-supplied callback or the router's navigate */
    | Invoke(callback: Callback)

  datatype Outcome<+T> = Done(value: T) | Threw(fault: Fault)

  /** Effects in the order they happen, and how the call ended. */
  datatype Run<+T> = Run(trace: seq<Action>, outcome: Outcome<T>)

  function Quiet(): Run<()> {
    Run([], Done(()))
  }

  /** `a; b` — `b` runs only if `a` did not throw. */
  function Then<T>(a: Run<()>, b: Run<T>): (r: Run<T>)
    ensures a.outcome.Threw? ==> r == Run(a.trace, Threw(a.outcome.fault))
    ensures a.outcome.Done? ==> r.trace == a.trace + b.trace && r.outcome == b.outcome
  {
    match a.outcome
    case Threw(f) => Run(a.trace, Threw(f))
    case Done(_) => Run(a.trace + b.trace, b.outcome)
  }

  /**
   * Grouping does not matter: `{a; b}; c` and `a; {b; c}` have the same effects
   * and end the same way, and the first step's effects always come first.
   */
  lemma ThenAssoc<T>(a: Run<()>, b: Run<()>, c: Run<T>)
    ensures Then(Then(a, b), c) == Then(a, Then(b, c))
    ensures a.trace <= Then(a, Then(b, c)).trace
    ensures Then(a, Then(b, c)).outcome.Done? <==> a.outcome.Done? && b.outcome.Done? && c.outcome.Done?
  {
  }

  /** Runs one after another; the first that throws ends the sequence. */
  function Sequenced(runs: seq<Run<()>>): Run<()>
    decreases |runs|
  {
    if |runs| == 0 then Quiet() else Then(runs[0], Sequenced(runs[1..]))
  }

  /** When every run finishes normally with one effect, effect `i` is run `i`'s. */
  lemma {:induction false} SequencedSingles(runs: seq<Run<()>>)
    requires forall i :: 0 <= i < |runs| ==> runs[i].outcome == Done(()) && |runs[i].trace| == 1
    ensures Sequenced(runs).outcome == Done(())
    ensures |Sequenced(runs).trace| == |runs|
    ensures forall i :: 0 <= i < |runs| ==> Sequenced(runs).trace[i] == runs[i].trace[0]
    decreases |runs|
  {
    if |runs| > 0 {
      var rest := runs[1..];
      SequencedSingles(rest);
      var t := Sequenced(runs).trace;
      assert t == runs[0].trace + Sequenced(rest).trace;
      forall i | 0 < i < |runs|
        ensures t[i] == runs[i].trace[0]
      {
        assert rest[i - 1] == runs[i];
      }
    }
  }

  /** When every run finishes normally with two effects, run `i`'s sit at `2i` and `2i+1`. */
  lemma {:induction false} SequencedPairs(runs: seq<Run<()>>)
    requires forall i :: 0 <= i < |runs| ==> runs[i].outcome == Done(()) && |runs[i].trace| == 2
    ensures Sequenced(runs).outcome == Done(())
    ensures |Sequenced(runs).trace| == 2 * |runs|
    ensures forall i :: 0 <= i < |runs| ==>
      Sequenced(runs).trace[2 * i] == runs[i].trace[0] && Sequenced(runs).trace[2 * i + 1] == runs[i].trace[1]
    decreases |runs|
  {
    if |runs| > 0 {
      var rest := runs[1..];
      SequencedPairs(rest);
      var t := Sequenced(runs).trace;
      assert t == runs[0].trace + Sequenced(rest).trace;
      forall i | 0 < i < |runs|
        ensures t[2 * i] == runs[i].trace[0] && t[2 * i + 1] == runs[i].trace[1]
      {
        assert rest[i - 1] == runs[i];
        assert t[2 * i] == Sequenced(rest).trace[2 * (i - 1)];
        assert t[2 * i + 1] == Sequenced(rest).trace[2 * (i - 1) + 1];
      }
    }
  }

  /** Runs that all finish normally with no effect add up to nothing. */
  lemma {:induction false} SequencedQuiet(runs: seq<Run<()>>)
    requires forall i :: 0 <= i < |runs| ==> runs[i] == Run([], Done(()))
    ensures Sequenced(runs) == Run([], Done(()))
    decreases |runs|
  {
    if |runs| > 0 {
      SequencedQuiet(runs[1..]);
    }
  }
}

=== FILE: facade.dfy ===
/**
 * The `useTracking` helpers: each fixes an event name, writes its leading
 * fields, spreads the caller's extra properties over them, and writes
 * `eventType` last.
 */
module Facade {
  import opened Optional
  import opened Events
  import opened Analytics

  /** The `eventType` categories. */
  datatype Category = UiInteraction | FormSubmission | NavigationKind | FeatureUsage | ConversionKind

  function CategoryName(c: Category): string {
    match c
    case UiInteraction => "ui_interaction"
    case FormSubmission => "form_submission"
    case NavigationKind => "navigation"
    case FeatureUsage => "feature_usage"
    case ConversionKind => "conversion"
  }

  /** `{...leading, ...extra, eventType: category}` */
  function FacadeProps(leading: seq<Member>, extra: Props, c: Category): Props {
    Literal(leading + [Spread(extra), Field("eventType", Str(CategoryName(c)))])
  }

  ghost predicate AllFields(leading: seq<Member>) {
    forall i :: 0 <= i < |leading| ==> leading[i].Field?
  }

  /** Leading field `i` is the last leading field with its key. */
  ghost predicate LastLeading(leading: seq<Member>, i: int) {
    && 0 <= i < |leading|
    && leading[i].Field?
    && forall j :: i < j < |leading| ==> leading[j].Field? ==> leading[j].key != leading[i].key
  }

  function FacadeMembers(leading: seq<Member>, extra: Props, c: Category): seq<Member> {
    leading + [Spread(extra), Field("eventType", Str(CategoryName(c)))]
  }

  /** `eventType` is written last, so it is always the helper's category. */
  lemma FacadeEventType(leading: seq<Member>, extra: Props, c: Category)
    ensures "eventType" in FacadeProps(leading, extra, c)
    ensures FacadeProps(leading, extra, c)["eventType"] == Str(CategoryName(c))
  {
    var ms := FacadeMembers(leading, extra, c);
    LiteralLookup(ms, "eventType");
    assert LastWriter(ms, |leading| + 1, "eventType");
  }

  /** Every extra key except `eventType` overrides whatever the leading fields wrote. */
  lemma FacadeExtraWins(leading: seq<Member>, extra: Props, c: Category, k: string)
    requires k in extra && k != "eventType"
    ensures k in FacadeProps(leading, extra, c) && FacadeProps(leading, extra, c)[k] == extra[k]
  {
    var ms := FacadeMembers(leading, extra, c);
    LiteralLookup(ms, k);
    assert LastWriter(ms, |leading|, k);
  }

  /** A leading field survives when neither the extras nor a later leading field name its key. */
  lemma FacadeLeadingSurvives(leading: seq<Member>, extra: Props, c: Category, i: int)
    requires LastLeading(leading, i) && AllFields(leading)
    requires leading[i].key !in extra && leading[i].key != "eventType"
    ensures leading[i].key in FacadeProps(leading, extra, c)
    ensures FacadeProps(leading, extra, c)[leading[i].key] == leading[i].value
  {
    var ms := FacadeMembers(leading, extra, c);
    var k := leading[i].key;
    LiteralLookup(ms, k);
    assert ms[i] == leading[i];
    forall j | i < j < |ms|
      ensures k !in MemberProps(ms[j])
    {
      if j < |leading| {
        assert ms[j] == leading[j];
      }
    }
    assert LastWriter(ms, i, k);
  }

  /** A key is in the bag exactly when a leading field, the extras or `eventType` writes it. */
  lemma FacadeHasKey(leading: seq<Member>, extra: Props, c: Category, k: string)
    ensures k in FacadeProps(leading, extra, c) <==>
      (k in extra || k == "eventType" || exists i :: 0 <= i < |leading| && k in MemberProps(leading[i]))
  {
    var ms := FacadeMembers(leading, extra, c);
    var n := |leading|;
    LiteralLookup(ms, k);
    assert MemberProps(ms[n]) == extra;
    assert MemberProps(ms[n + 1]) == map["eventType" := Str(CategoryName(c))];
    if exists i :: 0 <= i < n && k in MemberProps(leading[i]) {
      var i :| 0 <= i < n && k in MemberProps(leading[i]);
      assert ms[i] == leading[i];
    }
    if exists i :: 0 <= i < |ms| && k in MemberProps(ms[i]) {
      var i :| 0 <= i < |ms| && k in MemberProps(ms[i]);
      if i < n {
        assert ms[i] == leading[i];
      }
    }
  }

  /** The four facts every helper below inherits, for two leading fields. */
  lemma FacadePair(k0: string, v0: Value, k1: string, v1: Value, extra: Props, c: Category)
    requires k0 != k1 && k0 != "eventType" && k1 != "eventType"
    ensures var p := FacadeProps([Field(k0, v0), Field(k1, v1)], extra, c);
      && p.Keys == extra.Keys + {k0, k1, "eventType"}
      && p["eventType"] == Str(CategoryName(c))
      && (k0 !in extra ==> p[k0] == v0)
      && (k1 !in extra ==> p[k1] == v1)
      && (forall k :: k in extra && k != "eventType" ==> p[k] == extra[k])
  {
    var leading := [Field(k0, v0), Field(k1, v1)];
    forall k
      ensures k in FacadeProps(leading, extra, c) <==> k in extra.Keys + {k0, k1, "eventType"}
    {
      FacadeHasKey(leading, extra, c, k);
      assert MemberProps(leading[0]) == map[k0 := v0] && MemberProps(leading[1]) == map[k1 := v1];
    }
    FacadeEventType(leading, extra, c);
    if k0 !in extra {
      FacadeLeadingSurvives(leading, extra, c, 0);
    }
    if k1 !in extra {
      FacadeLeadingSurvives(leading, extra, c, 1);
    }
    forall k | k in extra && k != "eventType" {
      FacadeExtraWins(leading, extra, c, k);
    }
  }

  /** `value` in the bag: the number, or `undefined` when the caller gave none. */
  function Amount(value: Option<real>): Value {
    match value
    case Some(v) => Num(v)
    case None => Undefined
  }

  /** `trackButtonClick` */
  function ButtonClick(buttonName: string, section: string, extra: Props): (e: Envelope)
    ensures e.name == "Button Clicked"
    ensures e.props.Keys == extra.Keys + {"buttonName", "section", "eventType"}
    ensures e.props["eventType"] == Str("ui_interaction")
    ensures "buttonName" !in extra ==> e.props["buttonName"] == Str(buttonName)
    ensures "section" !in extra ==> e.props["section"] == Str(section)
    ensures forall k :: k in extra && k != "eventType" ==> k in e.props && e.props[k] == extra[k]
  {
    FacadePair("buttonName", Str(buttonName), "section", Str(section), extra, UiInteraction);
    Envelope("Button Clicked", FacadeProps([Field("buttonName", Str(buttonName)), Field("section", Str(section))], extra, UiInteraction))
  }

  datatype FormStatus = Success | Error

  function StatusName(s: FormStatus): string {
    match s
    case Success => "success"
    case Error => "error"
  }

  /** `trackFormSubmission` */
  function FormSubmitted(formName: string, status: FormStatus, extra: Props): (e: Envelope)
    ensures e.name == "Form Submitted"
    ensures e.props.Keys == extra.Keys + {"formName", "status", "eventType"}
    ensures e.props["eventType"] == Str("form_submission")
    ensures "formName" !in extra ==> e.props["formName"] == Str(formName)
    ensures "status" !in extra ==> e.props["status"] == Str(StatusName(status))
    ensures forall k :: k in extra && k != "eventType" ==> k in e.props && e.props[k] == extra[k]
  {
    FacadePair("formName", Str(formName), "status", Str(StatusName(status)), extra, FormSubmission);
    Envelope("Form Submitted", FacadeProps([Field("formName", Str(formName)), Field("status", Str(StatusName(status)))], extra, FormSubmission))
  }

  datatype LinkType = Internal | External | Tab

  function LinkTypeName(t: LinkType): string {
    match t
    case Internal => "internal"
    case External => "external"
    case Tab => "tab"
  }

  /** `useTracking`'s `trackNavigation`: no extras, so every field is as given. */
  function NavigationClicked(from: string, to: string, linkType: LinkType): (e: Envelope)
    ensures e.name == "Navigation"
    ensures e.props == map["from" := Str(from), "to" := Str(to), "linkType" := Str(LinkTypeName(linkType)),
                           "eventType" := Str("navigation")]
  {
    var leading := [Field("from", Str(from)), Field("to", Str(to)), Field("linkType", Str(LinkTypeName(linkType)))];
    forall k
      ensures k in FacadeProps(leading, map[], NavigationKind) <==> k in {"from", "to", "linkType", "eventType"}
    {
      FacadeHasKey(leading, map[], NavigationKind, k);
      assert MemberProps(leading[0]) == map["from" := Str(from)];
      assert MemberProps(leading[1]) == map["to" := Str(to)];
      assert MemberProps(leading[2]) == map["linkType" := Str(LinkTypeName(linkType))];
    }
    FacadeEventType(leading, map[], NavigationKind);
    FacadeLeadingSurvives(leading, map[], NavigationKind, 0);
    FacadeLeadingSurvives(leading, map[], NavigationKind, 1);
    FacadeLeadingSurvives(leading, map[], NavigationKind, 2);
    Envelope("Navigation", FacadeProps(leading, map[], NavigationKind))
  }

  /**
   * `trackFeatureUsage`. A caller's `action` extra replaces the `action` field,
   * and `trackEvent` then forwards that value as the sink's `action`.
   */
  function FeatureUsed(featureName: string, action: string, extra: Props): (e: Envelope)
    ensures e.name == "Feature Used"
    ensures e.props.Keys == extra.Keys + {"featureName", "action", "eventType"}
    ensures e.props["eventType"] == Str("feature_usage")
    ensures "featureName" !in extra ==> e.props["featureName"] == Str(featureName)
    ensures "action" !in extra ==> e.props["action"] == Str(action)
    ensures forall k :: k in extra && k != "eventType" ==> k in e.props && e.props[k] == extra[k]
  {
    FacadePair("featureName", Str(featureName), "action", Str(action), extra, FeatureUsage);
    Envelope("Feature Used", FacadeProps([Field("featureName", Str(featureName)), Field("action", Str(action))], extra, FeatureUsage))
  }

  /**
   * Through a live sink, `Feature Used` arrives with the sink's `action` set to
   * the feature's action, not the event name, unless the extras name their own.
   */
  lemma FeatureUsedAction(env: Env, featureName: string, action: string, extra: Props)
    requires HookCallable(env)
    ensures var e := FeatureUsed(featureName, action, extra);
      && TrackEvent(env, e.name, e.props).trace == [SinkEvent(EventPayload(e.name, e.props))]
      && Holds(EventPayload(e.name, e.props), "action", if "action" in extra then extra["action"] else Str(action))
  {
    var e := FeatureUsed(featureName, action, extra);
    TrackEventLive(env, e.name, e.props);
  }

  /** `useTracking`'s `trackConversion`: one event, `value` carried even when undefined. */
  function ConversionTracked(conversionName: string, value: Option<real>, extra: Props): (e: Envelope)
    ensures e.name == "Conversion"
    ensures e.props.Keys == extra.Keys + {"conversionName", "value", "eventType"}
    ensures e.props["eventType"] == Str("conversion")
    ensures "conversionName" !in extra ==> e.props["conversionName"] == Str(conversionName)
    ensures "value" !in extra ==> e.props["value"] == Amount(value)
    ensures forall k :: k in extra && k != "eventType" ==> k in e.props && e.props[k] == extra[k]
  {
    FacadePair("conversionName", Str(conversionName), "value", Amount(value), extra, ConversionKind);
    Envelope("Conversion", FacadeProps([Field("conversionName", Str(conversionName)), Field("value", Amount(value))], extra, ConversionKind))
  }
}

=== FILE: goals.dfy ===
/**
 * Goal tracking: `useFeatureTracking` and `useConversionTracking`. Both stamp
 * the event with the clock and the current path after the caller's properties,
 * so those two keys cannot be overridden.
 */
module Goals {
  import opened Optional
  import opened Events
  import opened Analytics
  import opened PageViews
  import opened Facade
  import opened TextUtil

  /** The bag of `trackFeatureUse`, with the clock reading and path as given. */
  function FeatureUseProps(featureName: string, properties: Props, stamp: Value, path: Value): Props {
    Literal([Field("feature", Str(featureName)), Spread(properties), Field("timestamp", stamp), Field("url", path)])
  }

  lemma FeatureUseShape(featureName: string, properties: Props, stamp: Value, path: Value)
    ensures var r := FeatureUseProps(featureName, properties, stamp, path);
      && r.Keys == properties.Keys + {"feature", "timestamp", "url"}
      && Holds(r, "timestamp", stamp)
      && Holds(r, "url", path)
      && ("feature" !in properties ==> Holds(r, "feature", Str(featureName)))
      && (forall k :: k in properties && k != "timestamp" && k != "url" ==> Holds(r, k, properties[k]))
  {
    Literal4(Field("feature", Str(featureName)), Spread(properties), Field("timestamp", stamp), Field("url", path));
  }

  /** `trackFeatureUse`: `{feature, ...properties, timestamp, url}` sent as `feature_used`. */
  function FeatureUse(env: PageEnv, featureName: string, properties: Props): (e: Envelope)
    ensures e.name == "feature_used"
    ensures e.props.Keys == properties.Keys + {"feature", "timestamp", "url"}
    ensures Holds(e.props, "timestamp", Num(env.now as real))
    ensures Holds(e.props, "url", Str(Window(env).location.pathname))
    ensures "feature" !in properties ==> Holds(e.props, "feature", Str(featureName))
    ensures forall k :: k in properties && k != "timestamp" && k != "url" ==> Holds(e.props, k, properties[k])
  {
    FeatureUseShape(featureName, properties, Num(env.now as real), Str(Window(env).location.pathname));
    Envelope("feature_used", FeatureUseProps(featureName, properties, Num(env.now as real), Str(Window(env).location.pathname)))
  }

  /** `useFeatureTracking`'s `trackFeatureUse`. */
  function TrackFeatureUse(env: PageEnv, featureName: string, properties: Props): Run<()> {
    Emit(env, FeatureUse(env, featureName, properties))
  }

  /**
   * With a sink, one `feature_used` event reaches it carrying the clock reading
   * and the current path; the sink's `action` is `feature_used` unless the
   * caller's bag names its own `action`.
   */
  lemma TrackFeatureUseLive(env: PageEnv, featureName: string, properties: Props)
    requires HookCallable(env)
    ensures var r := TrackFeatureUse(env, featureName, properties);
      && r.outcome == Done(()) && |r.trace| == 1 && r.trace[0].SinkEvent?
      && Holds(r.trace[0].payload, "timestamp", Num(env.now as real))
      && Holds(r.trace[0].payload, "url", Str(Window(env).location.pathname))
      && ("action" !in properties ==> Holds(r.trace[0].payload, "action", Str("feature_used")))
  {
    var e := FeatureUse(env, featureName, properties);
    TrackEventLive(env, e.name, e.props);
  }

  /**
   * The bag of `useConversionTracking`'s `conversion` event: the currency
   * defaults to `CAD` and the caller may override it, but not the clock
   * reading, the path or the referrer.
   */
  function ConversionProps(name: string, value: Option<real>, properties: Props, stamp: Value, path: Value, referrer: Value): Props {
    Literal(
      [Field("conversion_type", Str(name)), Field("value", Amount(value)), Field("currency", Str("CAD"))] +
      [Spread(properties)] +
      [Field("timestamp", stamp), Field("url", path), Field("referrer", referrer)])
  }

  /** The conversion bag is its three defaults, overlaid by the caller's bag, overlaid by the three stamps. */
  lemma ConversionOverlay(name: string, value: Option<real>, properties: Props, stamp: Value, path: Value, referrer: Value)
    ensures ConversionProps(name, value, properties, stamp, path, referrer) ==
      map["conversion_type" := Str(name), "value" := Amount(value), "currency" := Str("CAD")] + properties +
      map["timestamp" := stamp, "url" := path, "referrer" := referrer]
  {
    var pre := [Field("conversion_type", Str(name)), Field("value", Amount(value)), Field("currency", Str("CAD"))];
    var post := [Field("timestamp", stamp), Field("url", path), Field("referrer", referrer)];
    LiteralAround(pre, properties, post);
    LiteralFields3("conversion_type", Str(name), "value", Amount(value), "currency", Str("CAD"));
    LiteralFields3("timestamp", stamp, "url", path, "referrer", referrer);
  }

  /** The conversion bag holds the caller's keys plus the six fixed ones, and the stamps always win. */
  lemma ConversionStamps(name: string, value: Option<real>, properties: Props, stamp: Value, path: Value, referrer: Value)
    ensures var r := ConversionProps(name, value, properties, stamp, path, referrer);
      && r.Keys == properties.Keys + {"conversion_type", "value", "currency", "timestamp", "url", "referrer"}
      && Holds(r, "timestamp", stamp)
      && Holds(r, "url", path)
      && Holds(r, "referrer", referrer)
  {
    ConversionOverlay(name, value, properties, stamp, path, referrer);
  }

  /** The caller's bag overrides the three defaults and supplies every other key it names. */
  lemma ConversionDefaults(name: string, value: Option<real>, properties: Props, stamp: Value, path: Value, referrer: Value)
    ensures var r := ConversionProps(name, value, properties, stamp, path, referrer);
      && ("conversion_type" !in properties ==> Holds(r, "conversion_type", Str(name)))
      && ("value" !in properties ==> Holds(r, "value", Amount(value)))
      && ("currency" !in properties ==> Holds(r, "currency", Str("CAD")))
      && (forall k :: k in properties && k != "timestamp" && k != "url" && k != "referrer" ==> Holds(r, k, properties[k]))
  {
    ConversionOverlay(name, value, properties, stamp, path, referrer);
  }

  /** The `conversion` event, stamped from the environment; an empty referrer reads `direct`. */
  function ConversionEvent(env: PageEnv, name: string, value: Option<real>, properties: Props): (e: Envelope)
    ensures e.name == "conversion"
    ensures e.props.Keys == properties.Keys + {"conversion_type", "value", "currency", "timestamp", "url", "referrer"}
    ensures Holds(e.props, "timestamp", Num(env.now as real))
    ensures Holds(e.props, "url", Str(Window(env).location.pathname))
    ensures Holds(e.props, "referrer", Str(OrElse(Window(env).referrer, "direct")))
    ensures "currency" !in properties ==> Holds(e.props, "currency", Str("CAD"))
    ensures "conversion_type" !in properties ==> Holds(e.props, "conversion_type", Str(name))
    ensures "value" !in properties ==> Holds(e.props, "value", Amount(value))
    ensures forall k :: k in properties && k != "timestamp" && k != "url" && k != "referrer" ==> Holds(e.props, k, properties[k])
  {
    var stamp := Num(env.now as real);
    var path := Str(Window(env).location.pathname);
    var referrer := Str(OrElse(Window(env).referrer, "direct"));
    ConversionStamps(name, value, properties, stamp, path, referrer);
    ConversionDefaults(name, value, properties, stamp, path, referrer);
    Envelope("conversion", ConversionProps(name, value, properties, stamp, path, referrer))
  }

  /** The `goal_completed` event: `{goal, value, ...properties}`, so the caller may override both. */
  function GoalCompleted(name: string, value: real, properties: Props): (e: Envelope)
    ensures e.name == "goal_completed"
    ensures e.props.Keys == properties.Keys + {"goal", "value"}
    ensures "goal" !in properties ==> Holds(e.props, "goal", Str(name))
    ensures "value" !in properties ==> Holds(e.props, "value", Num(value))
    ensures forall k :: k in properties ==> Holds(e.props, k, properties[k])
  {
    Literal3(Field("goal", Str(name)), Field("value", Num(value)), Spread(properties));
    Envelope("goal_completed", Literal([Field("goal", Str(name)), Field("value", Num(value)), Spread(properties)]))
  }

  /** The events one `trackConversion` call emits, in order: a goal completion follows only when a value is given. */
  function Conversions(env: PageEnv, name: string, value: Option<real>, properties: Props): (es: seq<Envelope>)
    ensures |es| == 1 || |es| == 2
    ensures |es| == 2 <==> value.Some?
    ensures es[0] == ConversionEvent(env, name, value, properties)
    ensures |es| == 2 ==> es[1] == GoalCompleted(name, value.value, properties)
  {
    [ConversionEvent(env, name, value, properties)] +
      match value
      case Some(v) => [GoalCompleted(name, v, properties)]
      case None => []
  }

  /** `useConversionTracking`'s `trackConversion`. */
  function TrackConversion(env: PageEnv, name: string, value: Option<real>, properties: Props): Run<()> {
    EmitAll(env, Conversions(env, name, value, properties))
  }

  /**
   * With a sink, the `conversion` event reaches it first, then the
   * `goal_completed` event exactly when a value was given.
   */
  lemma TrackConversionLive(env: PageEnv, name: string, value: Option<real>, properties: Props)
    requires HookCallable(env)
    ensures TrackConversion(env, name, value, properties).outcome == Done(())
    ensures |TrackConversion(env, name, value, properties).trace| == (if value.Some? then 2 else 1)
    ensures TrackConversion(env, name, value, properties).trace[0] ==
      SinkEvent(EventPayload("conversion", ConversionEvent(env, name, value, properties).props))
    ensures value.Some? ==>
      TrackConversion(env, name, value, properties).trace[1] ==
        SinkEvent(EventPayload("goal_completed", GoalCompleted(name, value.value, properties).props))
  {
    EmitAllLive(env, Conversions(env, name, value, properties));
  }

  /** A raising hook stops at the first event: the goal completion is never attempted. */
  lemma TrackConversionBroken(env: PageEnv, name: string, value: Option<real>, properties: Props)
    requires HookBroken(env)
    ensures TrackConversion(env, name, value, properties) == Run([], Threw(ErrorObject(Window(env).va.typeError)))
  {
    EmitAllBroken(env, Conversions(env, name, value, properties));
  }
}

=== FILE: mailto.dfy ===
/**
 * The `mailto:` URI of section 2 of RFC 6068: building one from a recipient and
 * two header fields, and reading it back the way a mail client does.
 */
module Mailto {
  import opened Optional
  import opened TextUtil
  import opened UriComponent

  datatype Mailto = Mailto(to: string, headers: seq<(string, string)>)

  /** `hfname "=" hfvalue`, both percent-decoded. */
  function ParseField(f: string): (r: Option<(string, string)>)
    ensures r.Some? ==> '=' in f
  {
    match SplitFirst(f, '=')
    case (_, None) => None
    case (name, Some(value)) =>
      match (Decode(name), Decode(value))
      case (Some(n), Some(v)) => Some((n, v))
      case _ => None
  }

  function ParseFields(fs: seq<string>): (r: Option<seq<(string, string)>>)
    ensures r.Some? ==> |r.value| == |fs|
  {
    if |fs| == 0 then Some([])
    else
      match (ParseField(fs[0]), ParseFields(fs[1..]))
      case (Some(h), Some(hs)) => Some([h] + hs)
      case _ => None
  }

  /** What follows the scheme: the recipient runs up to the first `?`, and the header fields are separated by `&`. */
  function ParseTarget(rest: string): Option<Mailto> {
    match SplitFirst(rest, '?')
    case (to, None) =>
      (match Decode(to)
       case Some(t) => Some(Mailto(t, []))
       case None => None)
    case (to, Some(query)) =>
      match (Decode(to), ParseFields(Split(query, '&')))
      case (Some(t), Some(hs)) => Some(Mailto(t, hs))
      case _ => None
  }

  /** `"mailto:" [ to ] [ "?" hfield *( "&" hfield ) ]`. */
  function Parse(uri: string): (r: Option<Mailto>)
    ensures r.Some? ==> |uri| >= 7 && uri[..7] == "mailto:"
  {
    if |uri| < 7 || uri[..7] != "mailto:" then None else ParseTarget(uri[7..])
  }

  /** One header field `name=value`, the value through `encodeURIComponent`. */
  function HField(name: string, value: string): string {
    name + "=" + Encode(value)
  }

  /** `mailto:to?n0=v0&n1=v1`. */
  function Uri(to: string, n0: string, v0: string, n1: string, v1: string): string {
    "mailto:" + to + "?" + HField(n0, v0) + "&" + HField(n1, v1)
  }

  /** The contact form's URI: a `subject` and a `body` field. */
  function Build(to: string, subject: string, body: string): string {
    Uri(to, "subject", subject, "body", body)
  }

  /** An encoded value never contains the separators `?`, `&`, `=` or `#`. */
  lemma EncodedSeparators(s: string)
    ensures '?' !in Encode(s) && '&' !in Encode(s) && '=' !in Encode(s) && '#' !in Encode(s)
  {
    var e := Encode(s);
    forall i | 0 <= i < |e|
      ensures e[i] != '?' && e[i] != '&' && e[i] != '=' && e[i] != '#'
    {
      assert Encoded(e[i]);
    }
  }

  /** A header name to which neither the separators nor `%` belong. */
  predicate PlainName(name: string) {
    '=' !in name && '&' !in name && '%' !in name
  }

  /** One field reads back as its name and decoded value. */
  lemma ParseHField(name: string, value: string)
    requires PlainName(name)
    ensures ParseField(HField(name, value)) == Some((name, value))
  {
    SplitFirstJoin(name, '=', Encode(value));
    DecodePlain(name);
    DecodeEncode(value);
  }

  lemma ParseTwoFields(f0: string, f1: string, h0: (string, string), h1: (string, string))
    requires ParseField(f0) == Some(h0) && ParseField(f1) == Some(h1)
    ensures ParseFields([f0, f1]) == Some([h0, h1])
  {
    assert [f1][1..] == [];
    assert ParseFields([]) == Some([]);
    assert [h1] + [] == [h1];
    assert ParseFields([f1]) == Some([h1]);
    assert [f0, f1][1..] == [f1];
    assert [h0] + [h1] == [h0, h1];
  }

  /** Two `&`-free fields joined by `&` split back into those two fields. */
  lemma SplitTwo(f0: string, f1: string)
    requires '&' !in f0 && '&' !in f1
    ensures Split(f0 + "&" + f1, '&') == [f0, f1]
  {
    assert [f0, f1][1..] == [f1];
    assert Join([f0, f1], '&') == f0 + "&" + f1;
    SplitJoin([f0, f1], '&');
  }

  /** A query of two fields splits and reads back into both, in order. */
  lemma ParseQuery(n0: string, v0: string, n1: string, v1: string)
    requires PlainName(n0) && PlainName(n1)
    ensures ParseFields(Split(HField(n0, v0) + "&" + HField(n1, v1), '&')) == Some([(n0, v0), (n1, v1)])
  {
    EncodedSeparators(v0);
    EncodedSeparators(v1);
    SplitTwo(HField(n0, v0), HField(n1, v1));
    ParseHField(n0, v0);
    ParseHField(n1, v1);
    ParseTwoFields(HField(n0, v0), HField(n1, v1), (n0, v0), (n1, v1));
  }

  /** Behind the scheme, parsing reads the target. */
  lemma ParseScheme(rest: string)
    ensures Parse("mailto:" + rest) == ParseTarget(rest)
  {
    var uri := "mailto:" + rest;
    assert uri[..7] == "mailto:";
    assert uri[7..] == rest;
  }

  /** A two-field URI is the scheme, the recipient, `?` and the `&`-joined query. */
  lemma UriParts(to: string, n0: string, v0: string, n1: string, v1: string)
    ensures Uri(to, n0, v0, n1, v1) == "mailto:" + (to + ['?'] + (HField(n0, v0) + "&" + HField(n1, v1)))
  {
    Regroup("mailto:", to, "?", HField(n0, v0), "&", HField(n1, v1));
  }

  lemma Regroup(a: string, b: string, c: string, d: string, e: string, f: string)
    ensures a + b + c + d + e + f == a + (b + c + (d + e + f))
  {
  }

  /** Reading a two-field URI recovers the recipient and both fields with their unencoded values. */
  lemma ParseUri(to: string, n0: string, v0: string, n1: string, v1: string)
    requires '?' !in to && '%' !in to && PlainName(n0) && PlainName(n1)
    ensures Parse(Uri(to, n0, v0, n1, v1)) == Some(Mailto(to, [(n0, v0), (n1, v1)]))
  {
    var query := HField(n0, v0) + "&" + HField(n1, v1);
    var rest := to + ['?'] + query;
    var fields := [(n0, v0), (n1, v1)];
    ParseQuery(n0, v0, n1, v1);
    assert ParseFields(Split(query, '&')) == Some(fields);
    ParseTargetQuery(to, query);
    assert ParseTarget(rest) == Some(Mailto(to, fields));
    ParseScheme(rest);
    assert Parse("mailto:" + rest) == Some(Mailto(to, fields));
    UriParts(to, n0, v0, n1, v1);
  }

  /** A recipient without `?` or `%` followed by a query reads back as that recipient and the query's fields. */
  lemma ParseTargetQuery(to: string, query: string)
    requires '?' !in to && '%' !in to
    ensures ParseFields(Split(query, '&')).Some? ==>
      ParseTarget(to + ['?'] + query) == Some(Mailto(to, ParseFields(Split(query, '&')).value))
  {
    SplitFirstJoin(to, '?', query);
    DecodePlain(to);
  }

  /**
   * A client reading the contact form's URI recovers the recipient, then exactly
   * the `subject` and `body` fields with their original, unencoded values.
   */
  lemma ParseBuild(to: string, subject: string, body: string)
    requires '?' !in to && '%' !in to
    ensures Parse(Build(to, subject, body)) == Some(Mailto(to, [("subject", subject), ("body", body)]))
  {
    ParseUri(to, "subject", subject, "body", body);
  }
}

=== FILE: navigation.dfy ===
/**
 * Manually tracked navigations: `trackNavigation` and `trackAndNavigate` of
 * `useNavigationTracking`.
 */
module Navigation {
  import opened Events
  import opened Analytics
  import opened PageViews

  /**
   * `trackNavigation`: the caller's event with `timestamp` always taken from the
   * clock, whatever the caller put there.
   */
  function NavigationEvent(event: Props, now: int): (e: Envelope)
    ensures e.name == "navigation"
    ensures e.props.Keys == event.Keys + {"timestamp"}
    ensures e.props["timestamp"] == Num(now as real)
    ensures forall k :: k in event && k != "timestamp" ==> e.props[k] == event[k]
  {
    SpreadThenField(event, "timestamp", Num(now as real));
    Envelope("navigation", Literal([Spread(event), Field("timestamp", Num(now as real))]))
  }

  /**
   * The event `trackAndNavigate` builds: the current path, the target, the raw
   * referrer and the parsed query, overlaid by the caller's `eventProps` (empty
   * when omitted).
   */
  function NavigationRequest(env: PageEnv, to: string, eventProps: Props): Props {
    Literal([
      Field("from", Str(Window(env).location.pathname)),
      Field("to", Str(to)),
      Field("referrer", Str(Window(env).referrer)),
      Field("searchParams", StrDict(Window(env).location.searchParams)),
      Spread(eventProps)])
  }

  /** The caller's `eventProps` override every default; the defaults fill the rest. */
  lemma NavigationRequestShape(env: PageEnv, to: string, eventProps: Props)
    ensures forall k :: k in eventProps ==> Holds(NavigationRequest(env, to, eventProps), k, eventProps[k])
    ensures "from" !in eventProps ==> Holds(NavigationRequest(env, to, eventProps), "from", Str(Window(env).location.pathname))
    ensures "to" !in eventProps ==> Holds(NavigationRequest(env, to, eventProps), "to", Str(to))
    ensures "referrer" !in eventProps ==> Holds(NavigationRequest(env, to, eventProps), "referrer", Str(Window(env).referrer))
    ensures "searchParams" !in eventProps ==>
      Holds(NavigationRequest(env, to, eventProps), "searchParams", StrDict(Window(env).location.searchParams))
  {
    var ms := [
      Field("from", Str(Window(env).location.pathname)),
      Field("to", Str(to)),
      Field("referrer", Str(Window(env).referrer)),
      Field("searchParams", StrDict(Window(env).location.searchParams)),
      Spread(eventProps)];
    forall k | k in eventProps
      ensures Holds(Literal(ms), k, eventProps[k])
    {
      LiteralSpreadWins(ms, 4, k);
    }
    if "from" !in eventProps {
      LiteralFieldWins(ms, 0);
    }
    if "to" !in eventProps {
      LiteralFieldWins(ms, 1);
    }
    if "referrer" !in eventProps {
      LiteralFieldWins(ms, 2);
    }
    if "searchParams" !in eventProps {
      LiteralFieldWins(ms, 3);
    }
  }

  /**
   * `trackAndNavigate`: the navigation event is emitted first and the router's
   * `navigate(to)` runs after it; a raising sink stops before navigating.
   */
  function TrackAndNavigate(env: PageEnv, to: string, eventProps: Props): (r: Run<()>)
    ensures r.outcome.Threw? <==> HookBroken(env)
    ensures HookBroken(env) ==> r.trace == []
    ensures !HookBroken(env) ==>
      && 1 <= |r.trace| <= 2
      && r.trace[|r.trace| - 1] == Invoke(Navigate(to))
      && forall i :: 0 <= i < |r.trace| - 1 ==> !r.trace[i].Invoke?
  {
    var e := NavigationEvent(NavigationRequest(env, to, eventProps), env.now);
    TrackEventNoCallbacks(env, e.name, e.props);
    Then(Emit(env, e), Run([Invoke(Navigate(to))], Done(())))
  }

  /** With a sink, the sink sees the navigation with its clock timestamp, then the router moves. */
  lemma TrackAndNavigateLive(env: PageEnv, to: string, eventProps: Props)
    requires HookCallable(env)
    ensures |TrackAndNavigate(env, to, eventProps).trace| == 2
    ensures TrackAndNavigate(env, to, eventProps).trace[0].SinkEvent?
    ensures Holds(TrackAndNavigate(env, to, eventProps).trace[0].payload, "timestamp", Num(env.now as real))
    ensures TrackAndNavigate(env, to, eventProps).trace[1] == Invoke(Navigate(to))
    ensures TrackAndNavigate(env, to, eventProps) == Run([
      SinkEvent(EventPayload("navigation", NavigationEvent(NavigationRequest(env, to, eventProps), env.now).props)),
      Invoke(Navigate(to))
    ], Done(()))
  {
    var e := NavigationEvent(NavigationRequest(env, to, eventProps), env.now);
    TrackEventLive(env, e.name, e.props);
  }
}

=== FILE: optional.dfy ===
/** A prop or field that may be absent (JavaScript's `undefined`). */
module Optional {

  datatype Option<+T> = None | Some(value: T) {

    /** The value, or the default a destructuring pattern `= default` supplies when it is absent. */
    function OrDefault(default: T): T {
      match this
      case Some(v) => v
      case None => default
    }
  }
}

=== FILE: page_views.dfy ===
/**
 * Page-view reporting: the location effect of `useNavigationTracking` and the
 * `TrackPageView` component.
 */
module PageViews {
  import opened Optional
  import opened Events
  import opened Analytics
  import opened TextUtil

  function Window(env: PageEnv): Browser {
    env.window.value
  }

  /** The title the location effect reports: `document.title || 'Untitled Page'`. */
  function EffectTitle(env: PageEnv): string {
    OrElse(Window(env).title, "Untitled Page")
  }

  /** The `page_view` bag: never an empty title or referrer, and the URL is path then query. */
  function PageViewProps(env: PageEnv): (p: Props)
    ensures "action" !in p
    ensures "page_title" in p && p["page_title"].Str? && p["page_title"].s != ""
    ensures Window(env).title != "" ==> Holds(p, "page_title", Str(Window(env).title))
    ensures "referrer" in p && p["referrer"].Str? && p["referrer"].s != ""
    ensures Window(env).referrer != "" ==> Holds(p, "referrer", Str(Window(env).referrer))
    ensures Holds(p, "page_url", Str(Window(env).location.pathname + Window(env).location.search))
    ensures Holds(p, "page_path", Str(Window(env).location.pathname))
    ensures Holds(p, "page_search", Str(Window(env).location.search))
    ensures Holds(p, "page_hash", Str(Window(env).location.hash))
    ensures Window(env).title == "" ==> Holds(p, "page_title", Str("Untitled Page"))
    ensures Window(env).referrer == "" ==> Holds(p, "referrer", Str("direct"))
  {
    var loc := Window(env).location;
    map[
      "page_title" := Str(EffectTitle(env)),
      "page_url" := Str(loc.pathname + loc.search),
      "page_path" := Str(loc.pathname),
      "page_search" := Str(loc.search),
      "page_hash" := Str(loc.hash),
      "referrer" := Str(OrElse(Window(env).referrer, "direct"))
    ]
  }

  /** The `page_view` bag holds exactly six keys: title, URL, path, query, fragment and referrer. */
  lemma PageViewKeys(env: PageEnv)
    ensures PageViewProps(env).Keys == {"page_title", "page_url", "page_path", "page_search", "page_hash", "referrer"}
  {
  }

  /**
   * The location effect: one `page_view` event through `trackEvent`, then, only
   * if a sink is present, one `pageview` with the full `href`.
   */
  function LocationChanged(env: PageEnv): (r: Run<()>)
    ensures |r.trace| <= 2
    ensures r.outcome.Threw? <==> HookBroken(env)
  {
    var viewed := TrackEvent(env, "page_view", PageViewProps(env));
    var paged :=
      match GetAnalytics(env)
      case Some(s) => Page(s, EffectTitle(env), Window(env).location.href, EffectTitle(env))
      case None => Quiet();
    Then(viewed, paged)
  }

  /** The same browser after the router moved to `loc`. */
  function At(env: PageEnv, loc: Location): (e: PageEnv)
    ensures Window(e).location == loc
  {
    env.(window := Some(Window(env).(location := loc)))
  }

  /** Entries `2i` and `2i+1` of `t` are the `page_view` event and the `pageview` for `loc`. */
  ghost predicate ReportedAt(t: seq<Action>, i: int, loc: Location) {
    && 0 <= 2 * i && 2 * i + 1 < |t|
    && t[2 * i].SinkEvent?
    && Holds(t[2 * i].payload, "action", Str("page_view"))
    && Holds(t[2 * i].payload, "page_path", Str(loc.pathname))
    && t[2 * i + 1].SinkPage?
    && Holds(t[2 * i + 1].payload, "page_url", Str(loc.href))
  }

  /** With a sink: the `page_view` event, then the `pageview` with the full URL, in that order. */
  lemma LocationChangedLive(env: PageEnv)
    requires HookCallable(env)
    ensures LocationChanged(env) == Run([
      SinkEvent(EventPayload("page_view", PageViewProps(env))),
      SinkPage(PagePayload(EffectTitle(env), Window(env).location.href, EffectTitle(env)))], Done(()))
    ensures ReportedAt(LocationChanged(env).trace, 0, Window(env).location)
  {
  }

  /** One live location change is two sink calls reporting that location. */
  lemma LocationChangedReported(env: PageEnv)
    requires HookCallable(env)
    ensures LocationChanged(env).outcome == Done(()) && |LocationChanged(env).trace| == 2
    ensures ReportedAt(LocationChanged(env).trace, 0, Window(env).location)
  {
    LocationChangedLive(env);
  }

  /** Without a sink a development build logs the `page_view` bag and sends no page view. */
  lemma LocationChangedLogged(env: PageEnv)
    requires NoHook(env) && Development(env)
    ensures LocationChanged(env) == Run([DevLog(LogLine("page_view"), PageViewProps(env))], Done(()))
  {
  }

  /** Without a sink outside development nothing is observable. */
  lemma LocationChangedSilent(env: PageEnv)
    requires NoHook(env) && !Development(env)
    ensures LocationChanged(env) == Run([], Done(()))
  {
  }

  /** A non-callable hook makes the first call raise, so the page view is never attempted. */
  lemma LocationChangedBroken(env: PageEnv)
    requires HookBroken(env)
    ensures LocationChanged(env) == Run([], Threw(ErrorObject(Window(env).va.typeError)))
  {
  }

  /** The effect runs once per location change, the initial mount included. */
  function Session(env: PageEnv, locs: seq<Location>): Run<()> {
    Sequenced(seq(|locs|, i requires 0 <= i < |locs| => LocationChanged(At(env, locs[i]))))
  }

  /**
   * With a sink, N location changes yield N `page_view` events, each carrying
   * the path active at its change, each followed by the `pageview` for that URL.
   */
  lemma SessionLive(env: PageEnv, locs: seq<Location>)
    requires HookCallable(env)
    ensures Session(env, locs).outcome == Done(())
    ensures |Session(env, locs).trace| == 2 * |locs|
    ensures forall i :: 0 <= i < |locs| ==> ReportedAt(Session(env, locs).trace, i, locs[i])
  {
    var runs := seq(|locs|, i requires 0 <= i < |locs| => LocationChanged(At(env, locs[i])));
    forall i | 0 <= i < |locs|
      ensures runs[i].outcome == Done(()) && |runs[i].trace| == 2
      ensures ReportedAt(runs[i].trace, 0, locs[i])
    {
      LocationChangedReported(At(env, locs[i]));
    }
    SequencedPairs(runs);
  }

  /** The development log entry of one location change. */
  function PageViewLog(env: PageEnv, loc: Location): Action {
    DevLog(LogLine("page_view"), PageViewProps(At(env, loc)))
  }

  /** Without a sink, a development build logs exactly one `page_view` line per change, in order. */
  lemma SessionLogged(env: PageEnv, locs: seq<Location>)
    requires NoHook(env) && Development(env)
    ensures Session(env, locs).outcome == Done(())
    ensures |Session(env, locs).trace| == |locs|
    ensures forall i :: 0 <= i < |locs| ==> Session(env, locs).trace[i] == PageViewLog(env, locs[i])
  {
    var runs := seq(|locs|, i requires 0 <= i < |locs| => LocationChanged(At(env, locs[i])));
    forall i | 0 <= i < |locs|
      ensures runs[i] == Run([PageViewLog(env, locs[i])], Done(()))
    {
      LocationChangedLogged(At(env, locs[i]));
    }
    SequencedSingles(runs);
  }

  /** The development log line of `TrackPageView`. */
  function PageViewLine(name: string): string {
    "[Analytics] Page View: " + name
  }

  /**
   * `TrackPageView`'s effect: one `pageview` with the given name, the path (not
   * the full URL) and the raw document title, or one development log line.
   */
  function PageViewMounted(env: PageEnv, name: string): (r: Run<()>)
    ensures |r.trace| <= 1
    ensures HookCallable(env) ==> r == Run([SinkPage(PagePayload(name, Window(env).location.pathname, Window(env).title))], Done(()))
    ensures NoHook(env) && Development(env) ==> r == Run([DevLog(PageViewLine(name),
      map["url" := Str(Window(env).location.pathname), "title" := Str(Window(env).title)])], Done(()))
    ensures NoHook(env) && !Development(env) ==> r == Run([], Done(()))
    ensures HookBroken(env) ==> r.trace == [] && r.outcome.Threw?
  {
    match GetAnalytics(env)
    case Some(s) => Page(s, name, Window(env).location.pathname, Window(env).title)
    case None =>
      if Development(env) then
        Run([DevLog(PageViewLine(name),
          map["url" := Str(Window(env).location.pathname), "title" := Str(Window(env).title)])], Done(()))
      else Quiet()
  }

  /**
   * A render of `TrackPageView`: the effect runs on mount (`previous` absent) and
   * when `name` differs from the previous render's; otherwise nothing happens.
   */
  function PageViewRendered(env: PageEnv, previous: Option<string>, name: string): (r: Run<()>)
    ensures previous == Some(name) ==> r == Run([], Done(()))
    ensures previous != Some(name) ==> r == PageViewMounted(env, name)
    ensures previous != Some(name) && HookCallable(env) ==>
      |r.trace| == 1 && r.trace[0].SinkPage? && Holds(r.trace[0].payload, "page_name", Str(name))
    ensures previous != Some(name) && NoHook(env) && Development(env) ==>
      |r.trace| == 1 && r.trace[0].DevLog? && r.trace[0].line == PageViewLine(name)
  {
    if previous == Some(name) then Quiet() else PageViewMounted(env, name)
  }
}

=== FILE: text.dfy ===
/** String helpers shared by the form redaction and the `mailto:` parser. */
module TextUtil {
  import opened Optional

  /** JavaScript's `s || fallback` on strings: the empty string is falsy. */
  function OrElse(s: string, fallback: string): (r: string)
    ensures r == s || r == fallback
    ensures fallback != "" ==> r != ""
    ensures s != "" ==> r == s
  {
    if s == "" then fallback else s
  }

  /** ASCII lower-casing of one character; every other character is kept. */
  function LowerChar(c: char): (r: char)
    ensures 'A' <= c <= 'Z' ==> r as int == c as int + 32
    ensures !('A' <= c <= 'Z') ==> r == c
  {
    if 'A' <= c <= 'Z' then (c as int + 32) as char else c
  }

  function Lower(s: string): (r: string)
    ensures |r| == |s|
    ensures forall i :: 0 <= i < |s| ==> r[i] == LowerChar(s[i])
  {
    seq(|s|, i requires 0 <= i < |s| => LowerChar(s[i]))
  }

  /** `sub` occurs in `s` starting at index `i`. */
  predicate OccursAt(s: string, sub: string, i: int) {
    0 <= i && i + |sub| <= |s| && s[i..i + |sub|] == sub
  }

  /** `s.includes(sub)`, by scanning left to right. */
  function Contains(s: string, sub: string): (r: bool)
    decreases |s|
  {
    if |sub| > |s| then false
    else if s[..|sub|] == sub then true
    else Contains(s[1..], sub)
  }

  /** The scan agrees with the definition: `sub` occurs at some index. */
  lemma {:induction false} ContainsOccurs(s: string, sub: string)
    ensures Contains(s, sub) <==> exists i :: OccursAt(s, sub, i)
    decreases |s|
  {
    if |sub| > |s| {
      assert forall i :: !OccursAt(s, sub, i);
    } else if s[..|sub|] == sub {
      assert OccursAt(s, sub, 0);
    } else {
      ContainsOccurs(s[1..], sub);
      if Contains(s[1..], sub) {
        var i :| OccursAt(s[1..], sub, i);
        assert s[i + 1..i + 1 + |sub|] == s[1..][i..i + |sub|];
        assert OccursAt(s, sub, i + 1);
      } else {
        forall i | OccursAt(s, sub, i)
          ensures false
        {
          assert i != 0;
          assert s[1..][i - 1..i - 1 + |sub|] == s[i..i + |sub|];
          assert OccursAt(s[1..], sub, i - 1);
        }
      }
    }
  }

  /** The index of the first `c` in `s`, if any. */
  function IndexOf(s: string, c: char): (r: Option<nat>)
    ensures r.Some? ==> r.value < |s| && s[r.value] == c && c !in s[..r.value]
    ensures r.None? <==> c !in s
    decreases |s|
  {
    if |s| == 0 then None
    else if s[0] == c then Some(0)
    else
      match IndexOf(s[1..], c)
      case None => None
      case Some(j) => Some(j + 1)
  }

  /** Splits at the first `c`: the part before it and, if `c` occurs, the part after it. */
  function SplitFirst(s: string, c: char): (r: (string, Option<string>))
    ensures r.1.None? <==> c !in s
    ensures r.1.None? ==> r.0 == s
    ensures r.1.Some? ==> s == r.0 + [c] + r.1.value && c !in r.0
  {
    match IndexOf(s, c)
    case None => (s, None)
    case Some(i) =>
      assert s == s[..i] + [c] + s[i + 1..];
      (s[..i], Some(s[i + 1..]))
  }

  /** Splitting `a + [c] + b` at the first `c` when `a` has none yields `a` and `b`. */
  lemma SplitFirstJoin(a: string, c: char, b: string)
    requires c !in a
    ensures SplitFirst(a + [c] + b, c) == (a, Some(b))
  {
    var r := SplitFirst(a + [c] + b, c);
    var s := a + [c] + b;
    assert s[|a|] == c;
    assert c in s;
    assert |r.0| == |a|;
    assert r.0 == s[..|r.0|] == a;
    assert r.1.value == s[|a| + 1..] == b;
  }

  /** `s.split(c)`: the maximal `c`-free pieces, in order. */
  function Split(s: string, c: char): (r: seq<string>)
    ensures |r| >= 1
    ensures forall i :: 0 <= i < |r| ==> c !in r[i]
    decreases |s|
  {
    match SplitFirst(s, c)
    case (head, None) => [head]
    case (head, Some(tail)) => [head] + Split(tail, c)
  }

  /** `parts.join(c)`. */
  function Join(parts: seq<string>, c: char): string
    requires |parts| >= 1
  {
    if |parts| == 1 then parts[0] else parts[0] + [c] + Join(parts[1..], c)
  }

  /** Splitting undoes joining `c`-free pieces. */
  lemma {:induction false} SplitJoin(parts: seq<string>, c: char)
    requires |parts| >= 1
    requires forall i :: 0 <= i < |parts| ==> c !in parts[i]
    ensures Split(Join(parts, c), c) == parts
    decreases |parts|
  {
    if |parts| == 1 {
    } else {
      SplitFirstJoin(parts[0], c, Join(parts[1..], c));
      SplitJoin(parts[1..], c);
    }
  }

  /** Joining the pieces of a split gives back the string. */
  lemma {:induction false} JoinSplit(s: string, c: char)
    ensures Join(Split(s, c), c) == s
    decreases |s|
  {
    match SplitFirst(s, c)
    case (head, None) =>
    case (head, Some(tail)) =>
      JoinSplit(tail, c);
  }
}

=== FILE: tracked_button.dfy ===
/**
 * `TrackedButton`: a button or link that reports each click through
 * `trackButtonClick` before running the caller's `onClick`.
 */
module TrackedButton {
  import opened Optional
  import opened Events
  import opened Analytics
  import opened Facade

  datatype Element = ButtonElement | LinkElement
  datatype Variant = DefaultVariant | Primary | Secondary | Outline | Ghost | LinkVariant
  datatype Size = Small | DefaultSize | Large | IconSize
  datatype Side = Left | Right

  /** `children`: a string, or any other React node. */
  datatype Children = TextChildren(s: string) | OtherChildren

  /**
   * The `disabled` prop, which has no default of its own: left out, passed as
   * `undefined`, or passed as a boolean. Spread after `disabled={isLoading}`,
   * a passed `undefined` still overwrites `isLoading`.
   */
  datatype DisabledProp = NoDisabled | DisabledUndefined | DisabledGiven(b: bool)

  /** The props as passed, each optional one possibly omitted. */
  datatype ButtonProps = ButtonProps(
    element: Option<Element>,
    trackingName: string,
    trackingSection: string,
    trackingProps: Option<Props>,
    variant: Option<Variant>,
    size: Option<Size>,
    isLoading: Option<bool>,
    hasIcon: bool,
    iconPosition: Option<Side>,
    disabled: DisabledProp,
    hasOnClick: bool,
    children: Children)

  /** The props after destructuring with defaults. */
  datatype Resolved = Resolved(
    element: Element,
    trackingName: string,
    trackingSection: string,
    trackingProps: Props,
    variant: Variant,
    size: Size,
    isLoading: bool,
    hasIcon: bool,
    iconPosition: Side,
    disabled: DisabledProp,
    hasOnClick: bool,
    children: Children)

  /** Defaults: a `button`, variant and size `default`, no tracking props, not loading, icon on the left. */
  function WithDefaults(p: ButtonProps): (r: Resolved)
    ensures r.element == p.element.OrDefault(ButtonElement)
    ensures p.trackingProps.None? ==> r.trackingProps == map[]
    ensures p.variant.None? ==> r.variant == DefaultVariant
    ensures p.size.None? ==> r.size == DefaultSize
    ensures p.isLoading.None? ==> !r.isLoading
    ensures p.iconPosition.None? ==> r.iconPosition == Left
    ensures p.variant.Some? ==> r.variant == p.variant.value
    ensures p.trackingProps.Some? ==> r.trackingProps == p.trackingProps.value
    ensures p.size.Some? ==> r.size == p.size.value
    ensures p.isLoading.Some? ==> r.isLoading == p.isLoading.value
    ensures p.iconPosition.Some? ==> r.iconPosition == p.iconPosition.value
    ensures && r.trackingName == p.trackingName && r.trackingSection == p.trackingSection
            && r.hasIcon == p.hasIcon && r.disabled == p.disabled
            && r.hasOnClick == p.hasOnClick && r.children == p.children
  {
    Resolved(
      p.element.OrDefault(ButtonElement), p.trackingName, p.trackingSection, p.trackingProps.OrDefault(map[]),
      p.variant.OrDefault(DefaultVariant), p.size.OrDefault(DefaultSize), p.isLoading.OrDefault(false),
      p.hasIcon, p.iconPosition.OrDefault(Left), p.disabled, p.hasOnClick, p.children)
  }

  function ElementName(e: Element): string {
    match e
    case ButtonElement => "button"
    case LinkElement => "a"
  }

  function VariantName(v: Variant): string {
    match v
    case DefaultVariant => "default"
    case Primary => "primary"
    case Secondary => "secondary"
    case Outline => "outline"
    case Ghost => "ghost"
    case LinkVariant => "link"
  }

  /** The text reported for the children: the string itself, or empty. */
  function ChildText(c: Children): string {
    match c
    case TextChildren(s) => s
    case OtherChildren => ""
  }

  /** The extras of the click report: the tracking props, then `element`, `variant` and `text` over them. */
  function ClickBag(trackingProps: Props, element: Value, variant: Value, text: Value): Props {
    Literal([Spread(trackingProps), Field("element", element), Field("variant", variant), Field("text", text)])
  }

  /** The bag is the tracking props overlaid by the three fields. */
  lemma ClickBagOverlay(trackingProps: Props, element: Value, variant: Value, text: Value)
    ensures ClickBag(trackingProps, element, variant, text) ==
      trackingProps + map["element" := element, "variant" := variant, "text" := text]
  {
    var post := [Field("element", element), Field("variant", variant), Field("text", text)];
    assert [Spread(trackingProps), Field("element", element), Field("variant", variant), Field("text", text)] ==
      [] + [Spread(trackingProps)] + post;
    LiteralAround([], trackingProps, post);
    LiteralFields3("element", element, "variant", variant, "text", text);
    assert Literal([]) == map[];
    assert map[] + trackingProps == trackingProps;
  }

  /** The three fields written after the spread always win; every other tracking key survives. */
  lemma ClickBagShape(trackingProps: Props, element: Value, variant: Value, text: Value)
    ensures var r := ClickBag(trackingProps, element, variant, text);
      && r.Keys == trackingProps.Keys + {"element", "variant", "text"}
      && Holds(r, "element", element)
      && Holds(r, "variant", variant)
      && Holds(r, "text", text)
      && (forall k :: k in trackingProps && k != "element" && k != "variant" && k != "text" ==> Holds(r, k, trackingProps[k]))
  {
    ClickBagOverlay(trackingProps, element, variant, text);
  }

  function ClickProps(r: Resolved): Props {
    ClickBag(r.trackingProps, Str(ElementName(r.element)), Str(VariantName(r.variant)), Str(ChildText(r.children)))
  }

  /** The click report. */
  function ClickEvent(r: Resolved): Envelope {
    ButtonClick(r.trackingName, r.trackingSection, ClickProps(r))
  }

  /** The keys of a click report: the tracking keys, the three bag fields and the helper's three. */
  lemma ClickReportKeys(name: string, section: string, trackingProps: Props, element: Value, variant: Value, text: Value)
    ensures ButtonClick(name, section, ClickBag(trackingProps, element, variant, text)).props.Keys ==
      trackingProps.Keys + {"element", "variant", "text", "buttonName", "section", "eventType"}
  {
    ClickBagShape(trackingProps, element, variant, text);
  }

  /** The bag's three fields reach the click report unchanged. */
  lemma ClickReportFields(name: string, section: string, bag: Props, element: Value, variant: Value, text: Value)
    requires Holds(bag, "element", element) && Holds(bag, "variant", variant) && Holds(bag, "text", text)
    ensures var e := ButtonClick(name, section, bag);
      Holds(e.props, "element", element) && Holds(e.props, "variant", variant) && Holds(e.props, "text", text)
  {
  }

  /** The tracking props supply `buttonName` and `section` when they name them, and every other key they hold. */
  lemma ClickReportTracking(name: string, section: string, trackingProps: Props, bag: Props)
    requires bag.Keys == trackingProps.Keys + {"element", "variant", "text"}
    requires forall k :: k in trackingProps && k != "element" && k != "variant" && k != "text" ==> Holds(bag, k, trackingProps[k])
    ensures var e := ButtonClick(name, section, bag);
      && ("buttonName" !in trackingProps ==> Holds(e.props, "buttonName", Str(name)))
      && ("section" !in trackingProps ==> Holds(e.props, "section", Str(section)))
      && (forall k :: k in trackingProps && k != "element" && k != "variant" && k != "text" && k != "eventType" ==>
            Holds(e.props, k, trackingProps[k]))
  {
  }

  /**
   * The click report names the rendered element, the visual variant and the
   * text whatever the tracking props say; it is a `ui_interaction`, and the
   * tracking props supply every other key they name, `buttonName` and
   * `section` included.
   */
  lemma ClickEventShape(r: Resolved)
    ensures var e := ClickEvent(r);
      && e.name == "Button Clicked"
      && e.props.Keys == r.trackingProps.Keys + {"element", "variant", "text", "buttonName", "section", "eventType"}
      && Holds(e.props, "element", Str(ElementName(r.element)))
      && Holds(e.props, "variant", Str(VariantName(r.variant)))
      && Holds(e.props, "text", Str(ChildText(r.children)))
      && Holds(e.props, "eventType", Str("ui_interaction"))
      && ("buttonName" !in r.trackingProps ==> Holds(e.props, "buttonName", Str(r.trackingName)))
      && ("section" !in r.trackingProps ==> Holds(e.props, "section", Str(r.trackingSection)))
      && (forall k :: k in r.trackingProps && k != "element" && k != "variant" && k != "text" && k != "eventType" ==>
            Holds(e.props, k, r.trackingProps[k]))
  {
    var el, va, tx := Str(ElementName(r.element)), Str(VariantName(r.variant)), Str(ChildText(r.children));
    ClickReportKeys(r.trackingName, r.trackingSection, r.trackingProps, el, va, tx);
    ClickBagShape(r.trackingProps, el, va, tx);
    ClickReportFields(r.trackingName, r.trackingSection, ClickProps(r), el, va, tx);
    ClickReportTracking(r.trackingName, r.trackingSection, r.trackingProps, ClickProps(r));
  }

  /** `handleClick`: the report first, then `onClick` if one was given; a raising sink stops before `onClick`. */
  function HandleClick(env: Env, r: Resolved): (run: Run<()>)
    ensures run.outcome.Threw? <==> HookBroken(env)
    ensures !HookBroken(env) ==> run.trace == Emit(env, ClickEvent(r)).trace + (if r.hasOnClick then [Invoke(OnClick)] else [])
    ensures HookBroken(env) ==> Invoke(OnClick) !in run.trace
  {
    TrackEventNoCallbacks(env, ClickEvent(r).name, ClickEvent(r).props);
    Then(Emit(env, ClickEvent(r)), if r.hasOnClick then Run([Invoke(OnClick)], Done(())) else Quiet())
  }

  /**
   * Whether the rendered control ignores clicks: a `button` is disabled while
   * loading unless a `disabled` prop, spread after, overwrites it (`undefined`
   * included, which enables it); a link has no disabled state.
   */
  function Disabled(r: Resolved): bool {
    match r.element
    case ButtonElement =>
      (match r.disabled
       case NoDisabled => r.isLoading
       case DisabledUndefined => false
       case DisabledGiven(b) => b)
    case LinkElement => false
  }

  /** A user's click: nothing when the control is disabled, else `handleClick`. */
  function Click(env: Env, r: Resolved): Run<()> {
    if Disabled(r) then Quiet() else HandleClick(env, r)
  }

  /** With a sink, a click on an enabled control reports once, then calls `onClick` once if given. */
  lemma ClickLive(env: Env, r: Resolved)
    requires HookCallable(env) && !Disabled(r)
    ensures Click(env, r) ==
      Run([SinkEvent(EventPayload("Button Clicked", ClickEvent(r).props))] + (if r.hasOnClick then [Invoke(OnClick)] else []),
        Done(()))
  {
    TrackEventLive(env, "Button Clicked", ClickEvent(r).props);
  }

  /** A loading `button` without an explicit `disabled` prop neither reports nor calls `onClick`. */
  lemma LoadingButtonInert(env: Env, r: Resolved)
    requires r.element == ButtonElement && r.isLoading && r.disabled == NoDisabled
    ensures Click(env, r) == Run([], Done(()))
  {
  }

  /**
   * From the props as passed: `isLoading` on a button (the default element)
   * with no `disabled` prop makes clicks inert; the control then shows the
   * spinner and the children and no icon.
   */
  lemma LoadingPropsInert(env: Env, p: ButtonProps)
    requires p.isLoading == Some(true) && p.element != Some(LinkElement) && p.disabled == NoDisabled
    ensures Click(env, WithDefaults(p)) == Run([], Done(()))
    ensures Content(WithDefaults(p)) == [Spinner, Label]
  {
    LoadingButtonInert(env, WithDefaults(p));
  }

  /**
   * A `disabled` prop passed as `undefined` enables the button even while it
   * loads: with a sink, a click is reported and `onClick` runs.
   */
  lemma UndefinedDisabledLive(env: Env, r: Resolved)
    requires HookCallable(env) && r.element == ButtonElement && r.disabled == DisabledUndefined
    ensures Click(env, r) ==
      Run([SinkEvent(EventPayload("Button Clicked", ClickEvent(r).props))] + (if r.hasOnClick then [Invoke(OnClick)] else []),
        Done(()))
  {
    ClickLive(env, r);
  }

  /** What the control shows, in order. */
  datatype Part = Spinner | Icon(side: Side) | Label

  /** The content: the spinner while loading, else the icon on its side; the children always. */
  function Content(r: Resolved): (parts: seq<Part>)
    ensures Label in parts
    ensures Spinner in parts <==> r.isLoading
    ensures forall side :: Icon(side) in parts <==> !r.isLoading && r.hasIcon && side == r.iconPosition
    ensures Spinner in parts ==> parts[0] == Spinner
    ensures |parts| == if r.isLoading || r.hasIcon then 2 else 1
    ensures multiset(parts)[Label] == 1
    ensures forall i, j :: 0 <= i < |parts| && 0 <= j < |parts| && parts[i] == Icon(Left) && parts[j] == Label ==> i < j
    ensures forall i, j :: 0 <= i < |parts| && 0 <= j < |parts| && parts[i] == Icon(Right) && parts[j] == Label ==> j < i
  {
    if r.isLoading then [Spinner, Label]
    else if !r.hasIcon then [Label]
    else if r.iconPosition == Left then [Icon(Left), Label]
    else [Label, Icon(r.iconPosition)]
  }
}

=== FILE: tracked_form.dfy ===
/**
 * `TrackedForm`'s submit handler: run the caller's handlers, combine their
 * results, report the submission with the form's fields (passwords masked) and
 * rethrow whatever went wrong after reporting it.
 */
module TrackedForm {
  import opened Optional
  import opened Events
  import opened Analytics
  import opened Facade
  import opened TextUtil

  /** A form entry's value: text, or a file. */
  datatype FieldValue = Text(s: string) | File

  type Entry = (string, FieldValue)

  /** Whether a field name marks a password: its lower-cased form contains `password`. */
  predicate Secret(key: string) {
    Contains(Lower(key), "password")
  }

  /** What the report shows for one entry: the text, `***` for a password, `null` for a file. */
  function Shown(key: string, v: FieldValue): (r: Option<string>)
    ensures v.File? <==> r.None?
    ensures v.Text? && Secret(key) ==> r == Some("***")
    ensures v.Text? && !Secret(key) ==> r == Some(v.s)
  {
    match v
    case Text(s) => Some(if Secret(key) then "***" else s)
    case File => None
  }

  /** The record built by the entry loop: one key per field name, later entries overwriting earlier ones. */
  function Redact(entries: seq<Entry>): map<string, Option<string>>
    decreases |entries|
  {
    if |entries| == 0 then map[]
    else
      var last := entries[|entries| - 1];
      Redact(entries[..|entries| - 1])[last.0 := Shown(last.0, last.1)]
  }

  /** Entry `i` is the last one named `k`. */
  ghost predicate LastEntry(entries: seq<Entry>, i: int, k: string) {
    && 0 <= i < |entries| && entries[i].0 == k
    && forall j :: i < j < |entries| ==> entries[j].0 != k
  }

  /** The record has exactly the submitted field names. */
  lemma {:induction false} RedactKeys(entries: seq<Entry>, k: string)
    ensures k in Redact(entries) <==> exists i :: 0 <= i < |entries| && entries[i].0 == k
    decreases |entries|
  {
    if |entries| > 0 {
      var n := |entries| - 1;
      RedactKeys(entries[..n], k);
      if k in Redact(entries) && entries[n].0 != k {
        var i :| 0 <= i < n && entries[..n][i].0 == k;
        assert entries[i].0 == k;
      }
    }
  }

  /** Each field name shows the last entry of that name. */
  lemma {:induction false} RedactLastWins(entries: seq<Entry>, i: int, k: string)
    requires LastEntry(entries, i, k)
    ensures k in Redact(entries) && Redact(entries)[k] == Shown(k, entries[i].1)
    decreases |entries|
  {
    var n := |entries| - 1;
    if i < n {
      assert LastEntry(entries[..n], i, k);
      RedactLastWins(entries[..n], i, k);
    }
  }

  /** A field named `Password` holding `secret123` is reported as `***`. */
  lemma PasswordMasked()
    ensures Redact([("Password", Text("secret123"))]) == map["Password" := Some("***")]
  {
    assert Lower("Password") == "password";
    assert Contains("password", "password");
  }

  /**
   * What a caller's handler did: returned a boolean, returned anything else
   * that is not a thenable, returned a thenable that settled with a boolean or
   * `undefined`, returned a thenable that rejected, or threw.
   */
  datatype Reply =
    | ReturnedBool(b: bool)
    | ReturnedOther
    | Settled(value: Option<bool>)
    | Rejected(reason: Fault)
    | Raised(fault: Fault)

  /** The handler ends in the `catch` block. */
  predicate Fails(h: Option<Reply>) {
    h.Some? && (h.value.Rejected? || h.value.Raised?)
  }

  /** The handler's result was awaited and resolved. */
  predicate Awaits(h: Option<Reply>) {
    h.Some? && h.value.Settled?
  }

  /** The handler said `false`, directly or through its thenable. */
  predicate SaysFalse(h: Option<Reply>) {
    h == Some(ReturnedBool(false)) || h == Some(Settled(Some(false)))
  }

  /** What a handler contributes to the result: a boolean, or nothing (the result stays as it was). */
  function Yield(h: Option<Reply>): Option<bool>
    requires !Fails(h)
  {
    match h
    case None => None
    case Some(ReturnedBool(b)) => Some(b)
    case Some(ReturnedOther) => None
    case Some(Settled(None)) => Some(true)
    case Some(Settled(Some(b))) => Some(b)
  }

  /** How a contribution combines: absent means `true`. */
  function Signal(c: Option<bool>): bool {
    match c
    case None => true
    case Some(b) => b
  }

  /** Calling one optional handler: the call, if any, and what it contributes or throws. */
  function Call(cb: Callback, h: Option<Reply>): (r: Run<Option<bool>>)
    ensures r.outcome.Threw? <==> Fails(h)
    ensures !Fails(h) ==> r.outcome == Done(Yield(h))
    ensures r.trace == (if h.Some? then [Invoke(cb)] else [])
  {
    match h
    case None => Run([], Done(None))
    case Some(Rejected(f)) => Run([Invoke(cb)], Threw(f))
    case Some(Raised(f)) => Run([Invoke(cb)], Threw(f))
    case Some(_) => Run([Invoke(cb)], Done(Yield(h)))
  }

  datatype FormProps = FormProps(
    formName: string,
    onSubmit: Option<Reply>,
    onTrackedSubmit: Option<Reply>,
    trackingProps: Props)

  /** The value `handleSubmit` resolves with when neither handler fails. */
  function Combined(p: FormProps): bool
    requires !Fails(p.onSubmit) && !Fails(p.onTrackedSubmit)
  {
    Signal(Yield(p.onSubmit)) && Signal(Yield(p.onTrackedSubmit))
  }

  /** The combined result is `false` exactly when one of the handlers said `false`. */
  lemma CombinedFalse(p: FormProps)
    requires !Fails(p.onSubmit) && !Fails(p.onTrackedSubmit)
    ensures !Combined(p) <==> SaysFalse(p.onSubmit) || SaysFalse(p.onTrackedSubmit)
  {
  }

  /** `error.message` for an `Error`, else `Unknown error`. */
  function ErrorMessage(f: Fault): string {
    match f
    case ErrorObject(m) => m
    case OtherValue => "Unknown error"
  }

  /** The success report: the tracking props with the masked fields, as `formFields`, on top. */
  function SuccessEvent(p: FormProps, entries: seq<Entry>): Envelope {
    FormSubmitted(p.formName, Facade.Success, Literal([Spread(p.trackingProps), Field("formFields", Json(Redact(entries)))]))
  }

  /** The failure report: the tracking props with the error's message, as `error`, on top. */
  function ErrorEvent(p: FormProps, f: Fault): Envelope {
    FormSubmitted(p.formName, Facade.Error, Literal([Spread(p.trackingProps), Field("error", Str(ErrorMessage(f)))]))
  }

  /** The success report always carries the masked fields; its status is `success` unless the tracking props name one. */
  lemma SuccessEventShape(p: FormProps, entries: seq<Entry>)
    ensures var e := SuccessEvent(p, entries);
      && e.name == "Form Submitted"
      && Holds(e.props, "formFields", Json(Redact(entries)))
      && Holds(e.props, "eventType", Str("form_submission"))
      && ("status" !in p.trackingProps ==> Holds(e.props, "status", Str("success")))
      && ("formName" !in p.trackingProps ==> Holds(e.props, "formName", Str(p.formName)))
      && e.props.Keys == p.trackingProps.Keys + {"formFields", "formName", "status", "eventType"}
      && (forall k :: k in p.trackingProps && k != "formFields" && k != "eventType" ==> Holds(e.props, k, p.trackingProps[k]))
  {
    SpreadThenField(p.trackingProps, "formFields", Json(Redact(entries)));
  }

  /** The failure report carries the error's message; its status is `error` unless the tracking props name one. */
  lemma ErrorEventShape(p: FormProps, f: Fault)
    ensures var e := ErrorEvent(p, f);
      && e.name == "Form Submitted"
      && Holds(e.props, "error", Str(ErrorMessage(f)))
      && Holds(e.props, "eventType", Str("form_submission"))
      && ("status" !in p.trackingProps ==> Holds(e.props, "status", Str("error")))
      && ("formName" !in p.trackingProps ==> Holds(e.props, "formName", Str(p.formName)))
      && e.props.Keys == p.trackingProps.Keys + {"error", "formName", "status", "eventType"}
      && (forall k :: k in p.trackingProps && k != "error" && k != "eventType" ==> Holds(e.props, k, p.trackingProps[k]))
  {
    SpreadThenField(p.trackingProps, "error", Str(ErrorMessage(f)));
  }

  /**
   * The `try` block: the handlers in order, then the report of the fields.
   * `detached` says whether `e.currentTarget` is gone by the time the fields
   * are read, in which case building the `FormData` throws `DetachedForm`.
   */
  function Attempt(env: Env, p: FormProps, entries: seq<Entry>, detached: bool): Run<bool> {
    var first := Call(OnSubmit, p.onSubmit);
    match first.outcome
    case Threw(f) => Run(first.trace, Threw(f))
    case Done(x) =>
      var second := Call(OnTrackedSubmit, p.onTrackedSubmit);
      match second.outcome
      case Threw(f) => Run(first.trace + second.trace, Threw(f))
      case Done(y) =>
        if detached then Run(first.trace + second.trace, Threw(DetachedForm))
        else
          var report := Emit(env, SuccessEvent(p, entries));
          Run(first.trace + second.trace + report.trace,
            match report.outcome
            case Threw(f) => Threw(f)
            case Done(_) => Done(Signal(x) && Signal(y)))
  }

  /** What `new FormData(null)` throws. */
  const DetachedForm := ErrorObject("Failed to construct 'FormData': parameter 1 is not of type 'HTMLFormElement'.")

  /**
   * `handleSubmit` with the field read as given by `detached`: prevent the
   * native submission, run the `try` block, and on a throw report the error
   * and throw the same value again (unless reporting itself throws).
   */
  function Submit(env: Env, p: FormProps, entries: seq<Entry>, detached: bool): (r: Run<bool>)
    ensures |r.trace| >= 1 && r.trace[0] == Invoke(PreventDefault)
  {
    var attempt := Attempt(env, p, entries, detached);
    match attempt.outcome
    case Done(b) => Run([Invoke(PreventDefault)] + attempt.trace, Done(b))
    case Threw(f) =>
      var report := Emit(env, ErrorEvent(p, f));
      Run([Invoke(PreventDefault)] + attempt.trace + report.trace,
        match report.outcome
        case Threw(g) => Threw(g)
        case Done(_) => Threw(f))
  }

  /** `handleSubmit` as written: the fields are read after any `await`, when React has already cleared `currentTarget`. */
  function HandleSubmitAsWritten(env: Env, p: FormProps, entries: seq<Entry>): Run<bool> {
    Submit(env, p, entries, Awaits(p.onSubmit) || Awaits(p.onTrackedSubmit))
  }

  /** `handleSubmit` with the form captured before the first `await`. */
  function HandleSubmit(env: Env, p: FormProps, entries: seq<Entry>): Run<bool> {
    Submit(env, p, entries, false)
  }

  /** The calls of the two handlers, as far as they get. */
  function Calls(p: FormProps): seq<Action> {
    Call(OnSubmit, p.onSubmit).trace + (if Fails(p.onSubmit) then [] else Call(OnTrackedSubmit, p.onTrackedSubmit).trace)
  }

  /**
   * Native submission is prevented first; `onSubmit` is called before
   * `onTrackedSubmit`, each at most once, and `onTrackedSubmit` not at all
   * when `onSubmit` fails.
   */
  lemma CallOrder(p: FormProps)
    ensures p.onSubmit.Some? ==> |Calls(p)| >= 1 && Calls(p)[0] == Invoke(OnSubmit)
    ensures p.onSubmit.None? ==> Invoke(OnSubmit) !in Calls(p)
    ensures Invoke(OnTrackedSubmit) in Calls(p) <==> p.onTrackedSubmit.Some? && !Fails(p.onSubmit)
    ensures Invoke(OnTrackedSubmit) in Calls(p) ==> Calls(p)[|Calls(p)| - 1] == Invoke(OnTrackedSubmit)
    ensures |Calls(p)| <= 2
  {
  }

  /**
   * When neither handler fails and the sink does not raise: the handlers'
   * calls, then the one success report, and the combined result.
   */
  lemma HandleSubmitCompletes(env: Env, p: FormProps, entries: seq<Entry>)
    requires !Fails(p.onSubmit) && !Fails(p.onTrackedSubmit) && !HookBroken(env)
    ensures HandleSubmit(env, p, entries) ==
      Run([Invoke(PreventDefault)] + Calls(p) + Emit(env, SuccessEvent(p, entries)).trace, Done(Combined(p)))
  {
  }

  /** The handler that failed first, and what it threw. */
  function FirstFault(p: FormProps): Fault
    requires Fails(p.onSubmit) || Fails(p.onTrackedSubmit)
  {
    if Fails(p.onSubmit) then Call(OnSubmit, p.onSubmit).outcome.fault
    else Call(OnTrackedSubmit, p.onTrackedSubmit).outcome.fault
  }

  /**
   * When a handler fails and the sink does not raise: the calls made so far,
   * then the one failure report, and the handler's own exception thrown on.
   */
  lemma HandleSubmitFails(env: Env, p: FormProps, entries: seq<Entry>)
    requires (Fails(p.onSubmit) || Fails(p.onTrackedSubmit)) && !HookBroken(env)
    ensures HandleSubmit(env, p, entries) ==
      Run([Invoke(PreventDefault)] + Calls(p) + Emit(env, ErrorEvent(p, FirstFault(p))).trace, Threw(FirstFault(p)))
  {
  }

  /**
   * A sink that raises makes the submission throw its `TypeError`: either the
   * success report raises and the failure report raises again, or a handler
   * failed and its failure report raises.
   */
  lemma HandleSubmitBrokenSink(env: Env, p: FormProps, entries: seq<Entry>)
    requires HookBroken(env)
    ensures HandleSubmit(env, p, entries).outcome == Threw(ErrorObject(env.window.value.va.typeError))
  {
    TrackEventBroken(env, "Form Submitted", SuccessEvent(p, entries).props);
    if Fails(p.onSubmit) || Fails(p.onTrackedSubmit) {
      TrackEventBroken(env, "Form Submitted", ErrorEvent(p, FirstFault(p)).props);
    } else {
      TrackEventBroken(env, "Form Submitted", ErrorEvent(p, ErrorObject(env.window.value.va.typeError)).props);
    }
  }

  /** Where no handler's result is awaited, the code as written behaves like the corrected handler. */
  lemma AsWrittenWithoutAwait(env: Env, p: FormProps, entries: seq<Entry>)
    requires !Awaits(p.onSubmit) && !Awaits(p.onTrackedSubmit)
    ensures HandleSubmitAsWritten(env, p, entries) == HandleSubmit(env, p, entries)
  {
  }

  /**
   * As written, a failing handler is reported and rethrown exactly as in the
   * corrected handler: the fields are never read, so when they would be does
   * not matter.
   */
  lemma AsWrittenFails(env: Env, p: FormProps, entries: seq<Entry>)
    requires (Fails(p.onSubmit) || Fails(p.onTrackedSubmit)) && !HookBroken(env)
    ensures HandleSubmitAsWritten(env, p, entries) ==
      Run([Invoke(PreventDefault)] + Calls(p) + Emit(env, ErrorEvent(p, FirstFault(p))).trace, Threw(FirstFault(p)))
  {
    assert Attempt(env, p, entries, true) == Attempt(env, p, entries, false);
    HandleSubmitFails(env, p, entries);
  }

  /** As written too, a sink that raises makes the submission throw its `TypeError`. */
  lemma AsWrittenBrokenSink(env: Env, p: FormProps, entries: seq<Entry>)
    requires HookBroken(env)
    ensures HandleSubmitAsWritten(env, p, entries).outcome == Threw(ErrorObject(env.window.value.va.typeError))
  {
    if Fails(p.onSubmit) || Fails(p.onTrackedSubmit) {
      assert Attempt(env, p, entries, true) == Attempt(env, p, entries, false);
      HandleSubmitBrokenSink(env, p, entries);
    } else if Awaits(p.onSubmit) || Awaits(p.onTrackedSubmit) {
      TrackEventBroken(env, "Form Submitted", ErrorEvent(p, DetachedForm).props);
    } else {
      HandleSubmitBrokenSink(env, p, entries);
    }
  }

  /**
   * As written, once a handler's result has been awaited and neither handler
   * failed, reading the fields throws: the failure report goes out instead
   * of the success report and the submission rejects.
   */
  lemma AsWrittenAfterAwait(env: Env, p: FormProps, entries: seq<Entry>)
    requires Awaits(p.onSubmit) || Awaits(p.onTrackedSubmit)
    requires !Fails(p.onSubmit) && !Fails(p.onTrackedSubmit) && !HookBroken(env)
    ensures HandleSubmitAsWritten(env, p, entries) ==
      Run([Invoke(PreventDefault)] + Calls(p) + Emit(env, ErrorEvent(p, DetachedForm)).trace, Threw(DetachedForm))
  {
  }

  /**
   * An asynchronous `onSubmit` resolving `true`, with a working sink: the code
   * as written reads the fields after the `await`, throws, reports an error
   * and rejects.
   */
  lemma AsWrittenAsyncSubmit(env: Env, formName: string, trackingProps: Props, entries: seq<Entry>)
    requires HookCallable(env)
    ensures var p := FormProps(formName, Some(Settled(Some(true))), None, trackingProps);
      HandleSubmitAsWritten(env, p, entries) == Run([Invoke(PreventDefault), Invoke(OnSubmit),
        SinkEvent(EventPayload("Form Submitted", ErrorEvent(p, DetachedForm).props))], Threw(DetachedForm))
  {
    var p := FormProps(formName, Some(Settled(Some(true))), None, trackingProps);
    AsWrittenAfterAwait(env, p, entries);
    TrackEventLive(env, "Form Submitted", ErrorEvent(p, DetachedForm).props);
    assert Calls(p) == [Invoke(OnSubmit)];
  }

  /** The same submission through the corrected handler reports success and resolves `true`. */
  lemma CorrectedAsyncSubmit(env: Env, formName: string, trackingProps: Props, entries: seq<Entry>)
    requires HookCallable(env)
    ensures var p := FormProps(formName, Some(Settled(Some(true))), None, trackingProps);
      HandleSubmit(env, p, entries) == Run([Invoke(PreventDefault), Invoke(OnSubmit),
        SinkEvent(EventPayload("Form Submitted", SuccessEvent(p, entries).props))], Done(true))
  {
    var p := FormProps(formName, Some(Settled(Some(true))), None, trackingProps);
    HandleSubmitCompletes(env, p, entries);
    TrackEventLive(env, "Form Submitted", SuccessEvent(p, entries).props);
    assert Calls(p) == [Invoke(OnSubmit)];
  }
}

=== FILE: uri_component.dfy ===
/**
 * `encodeURIComponent` and `decodeURIComponent` (sections 19.2.6.5 and
 * 19.2.6.2 of ECMA-262, 2022 edition) over strings of Unicode scalar values,
 * with UTF-8 as in RFC 3629.
 */
module UriComponent {
  import opened Optional

  type Byte = b: int | 0 <= b < 256

  /** `uriUnescaped`: ASCII letters, decimal digits and the marks `-_.!~*'()`. */
  predicate Unreserved(c: char) {
    || ('A' <= c <= 'Z') || ('a' <= c <= 'z') || ('0' <= c <= '9')
    || c == '-' || c == '_' || c == '.' || c == '!' || c == '~' || c == '*' || c == '\'' || c == '(' || c == ')'
  }

  /** A character an encoded component may contain. */
  predicate Encoded(c: char) {
    Unreserved(c) || c == '%'
  }

  /** The upper-case hexadecimal digit the encoder writes for `d`. */
  function HexDigit(d: int): (c: char)
    requires 0 <= d < 16
    ensures Unreserved(c)
  {
    if d < 10 then ('0' as int + d) as char else ('A' as int + d - 10) as char
  }

  /** The value of a hexadecimal digit of either case. */
  function HexValue(c: char): (r: Option<int>)
    ensures r.Some? ==> 0 <= r.value < 16
    ensures r.Some? <==> ('0' <= c <= '9') || ('A' <= c <= 'F') || ('a' <= c <= 'f')
  {
    if '0' <= c <= '9' then Some(c as int - '0' as int)
    else if 'A' <= c <= 'F' then Some(c as int - 'A' as int + 10)
    else if 'a' <= c <= 'f' then Some(c as int - 'a' as int + 10)
    else None
  }

  lemma HexRoundTrip(d: int)
    requires 0 <= d < 16
    ensures HexValue(HexDigit(d)) == Some(d)
  {
  }

  /** `%XY` for one byte. */
  function Percent(b: Byte): (r: string)
    ensures |r| == 3 && r[0] == '%'
    ensures forall i :: 0 <= i < |r| ==> Encoded(r[i])
  {
    ['%', HexDigit(b / 16), HexDigit(b % 16)]
  }

  function PercentAll(bs: seq<Byte>): (r: string)
    ensures |r| == 3 * |bs|
    ensures forall i :: 0 <= i < |r| ==> Encoded(r[i])
  {
    if |bs| == 0 then "" else Percent(bs[0]) + PercentAll(bs[1..])
  }

  /** The UTF-8 encoding of a scalar value. */
  function Utf8(c: char): (r: seq<Byte>)
    ensures 1 <= |r| <= 4
    ensures |r| == 1 <==> c as int < 0x80
  {
    var n := c as int;
    if n < 0x80 then [n]
    else if n < 0x800 then [0xC0 + n / 64, 0x80 + n % 64]
    else if n < 0x10000 then [0xE0 + n / 4096, 0x80 + (n / 64) % 64, 0x80 + n % 64]
    else [0xF0 + n / 262144, 0x80 + (n / 4096) % 64, 0x80 + (n / 64) % 64, 0x80 + n % 64]
  }

  /** One character: kept when unreserved, else its UTF-8 bytes as `%XY` triples. */
  function EncodeChar(c: char): (r: string)
    ensures Unreserved(c) ==> r == [c]
    ensures !Unreserved(c) ==> r == PercentAll(Utf8(c))
  {
    if Unreserved(c) then [c] else PercentAll(Utf8(c))
  }

  /** `encodeURIComponent`. */
  function Encode(s: string): (r: string)
    ensures forall i :: 0 <= i < |r| ==> Encoded(r[i])
    ensures (forall i :: 0 <= i < |s| ==> Unreserved(s[i])) ==> r == s
  {
    if |s| == 0 then "" else EncodeChar(s[0]) + Encode(s[1..])
  }

  /** How many bytes a leading byte announces; 0 for a continuation byte or `F8`-`FF`. */
  function LeadLength(b: Byte): (n: nat)
    ensures n <= 4
  {
    if b < 0x80 then 1
    else if b < 0xC0 then 0
    else if b < 0xE0 then 2
    else if b < 0xF0 then 3
    else if b < 0xF8 then 4
    else 0
  }

  /** `10xxxxxx`. */
  predicate Continuation(b: Byte) {
    0x80 <= b < 0xC0
  }

  /** A leading byte followed by the continuation bytes it announces. */
  predicate Sequence(bs: seq<Byte>) {
    && 2 <= |bs| <= 4 && LeadLength(bs[0]) == |bs|
    && forall j :: 1 <= j < |bs| ==> Continuation(bs[j])
  }

  /** The scalar value a multi-byte sequence encodes, if it is a valid, shortest encoding. */
  function Utf8Scalar(bs: seq<Byte>): (r: Option<char>)
    requires Sequence(bs)
  {
    if |bs| == 2 then
      var n := (bs[0] as int - 0xC0) * 64 + (bs[1] as int - 0x80);
      if 0x80 <= n then Some(n as char) else None
    else if |bs| == 3 then
      var n := (bs[0] as int - 0xE0) * 4096 + (bs[1] as int - 0x80) * 64 + (bs[2] as int - 0x80);
      if 0x800 <= n && !(0xD800 <= n <= 0xDFFF) then Some(n as char) else None
    else
      var n := (bs[0] as int - 0xF0) * 262144 + (bs[1] as int - 0x80) * 4096 + (bs[2] as int - 0x80) * 64 + (bs[3] as int - 0x80);
      if 0x10000 <= n <= 0x10FFFF then Some(n as char) else None
  }

  /** The byte written as `%XY` at the start of `s`. */
  function ReadByte(s: string): (r: Option<Byte>)
    ensures r.Some? ==> |s| >= 3
  {
    if |s| < 3 || s[0] != '%' then None
    else
      match (HexValue(s[1]), HexValue(s[2]))
      case (Some(h), Some(l)) => Some(h * 16 + l)
      case _ => None
  }

  /** `n` consecutive `%XY` triples at the start of `s`. */
  function ReadBytes(s: string, n: nat): (r: Option<seq<Byte>>)
    ensures r.Some? ==> |r.value| == n && 3 * n <= |s|
    ensures r.Some? && n > 0 ==> ReadByte(s) == Some(r.value[0])
  {
    if n == 0 then Some([])
    else
      match ReadByte(s)
      case None => None
      case Some(b) =>
        match ReadBytes(s[3..], n - 1)
        case None => None
        case Some(bs) => Some([b] + bs)
  }

  function Prepend(c: char, r: Option<string>): (q: Option<string>)
    ensures q.Some? <==> r.Some?
    ensures q.Some? ==> q.value == [c] + r.value
  {
    match r
    case Some(t) => Some([c] + t)
    case None => None
  }

  /**
   * `decodeURIComponent`: `None` stands for the `URIError` thrown on a
   * malformed escape, a byte that cannot start a sequence, a missing
   * continuation byte, or an invalid UTF-8 sequence.
   */
  function Decode(s: string): (r: Option<string>)
    decreases |s|
  {
    if |s| == 0 then Some("")
    else if s[0] != '%' then Prepend(s[0], Decode(s[1..]))
    else
      match ReadByte(s)
      case None => None
      case Some(b) =>
        var n := LeadLength(b);
        if n == 0 then None
        else if n == 1 then Prepend(b as char, Decode(s[3..]))
        else
          match ReadBytes(s, n)
          case None => None
          case Some(bs) =>
            if !Sequence(bs) then None
            else
              match Utf8Scalar(bs)
              case None => None
              case Some(c) => Prepend(c, Decode(s[3 * n..]))
  }

  /** The decoder reads back the byte the encoder wrote. */
  lemma ReadPercent(b: Byte, t: string)
    ensures ReadByte(Percent(b) + t) == Some(b)
  {
    HexRoundTrip(b / 16);
    HexRoundTrip(b % 16);
  }

  lemma {:induction false} ReadPercentAll(bs: seq<Byte>, t: string)
    ensures ReadBytes(PercentAll(bs) + t, |bs|) == Some(bs)
    decreases |bs|
  {
    if |bs| > 0 {
      var s := PercentAll(bs) + t;
      ReadPercent(bs[0], PercentAll(bs[1..]) + t);
      assert s == Percent(bs[0]) + (PercentAll(bs[1..]) + t);
      assert s[3..] == PercentAll(bs[1..]) + t;
      ReadPercentAll(bs[1..], t);
      assert [bs[0]] + bs[1..] == bs;
    }
  }

  /** Dividing by 64 twice is dividing by 4096. */
  lemma DivDiv64(n: nat)
    ensures n / 4096 == (n / 64) / 64
    ensures (n / 64) % 64 == (n % 4096) / 64
  {
    var m, r := n / 64, n % 64;
    var a, b := m / 64, m % 64;
    assert n == 4096 * a + (64 * b + r);
  }

  lemma Utf8Inverse2(c: char)
    requires 0x80 <= c as int < 0x800
    ensures Sequence(Utf8(c)) && Utf8Scalar(Utf8(c)) == Some(c)
  {
    var n := c as int;
    assert n == (n / 64) * 64 + n % 64;
  }

  lemma Utf8Inverse3(c: char)
    requires 0x800 <= c as int < 0x10000
    ensures Sequence(Utf8(c)) && Utf8Scalar(Utf8(c)) == Some(c)
  {
    var n := c as int;
    DivDiv64(n);
    var a, b, r := n / 4096, (n / 64) % 64, n % 64;
    assert n / 64 == 64 * a + b;
    assert n == 4096 * a + 64 * b + r;
    assert Utf8(c) == [0xE0 + a, 0x80 + b, 0x80 + r];
  }

  lemma Utf8Inverse4(c: char)
    requires 0x10000 <= c as int
    ensures Sequence(Utf8(c)) && Utf8Scalar(Utf8(c)) == Some(c)
  {
    var n := c as int;
    DivDiv64(n);
    DivDiv64(n / 64);
    var a, b, d, r := n / 262144, (n / 4096) % 64, (n / 64) % 64, n % 64;
    assert n / 4096 == 64 * a + b;
    assert n / 64 == 64 * (n / 4096) + d;
    assert n == 262144 * a + 4096 * b + 64 * d + r;
    assert Utf8(c) == [0xF0 + a, 0x80 + b, 0x80 + d, 0x80 + r];
  }

  /** A multi-byte encoding is a well-formed sequence whose scalar is the character. */
  lemma Utf8Inverse(c: char)
    requires c as int >= 0x80
    ensures Sequence(Utf8(c))
    ensures Utf8Scalar(Utf8(c)) == Some(c)
  {
    if c as int < 0x800 {
      Utf8Inverse2(c);
    } else if c as int < 0x10000 {
      Utf8Inverse3(c);
    } else {
      Utf8Inverse4(c);
    }
  }

  /** Decoding the encoding of one character yields it, then decodes the rest. */
  lemma DecodeEncodeChar(c: char, t: string)
    ensures Decode(EncodeChar(c) + t) == Prepend(c, Decode(t))
  {
    var s := EncodeChar(c) + t;
    if Unreserved(c) {
      assert s[1..] == t;
    } else {
      var bs := Utf8(c);
      ReadPercentAll(bs, t);
      assert s[3 * |bs|..] == t;
      if |bs| == 1 {
        assert ReadByte(s) == Some(c as int);
      } else {
        Utf8Inverse(c);
      }
    }
  }

  /** `decodeURIComponent(encodeURIComponent(s)) === s`. */
  lemma {:induction false} DecodeEncode(s: string)
    ensures Decode(Encode(s)) == Some(s)
    decreases |s|
  {
    if |s| > 0 {
      DecodeEncodeChar(s[0], Encode(s[1..]));
      DecodeEncode(s[1..]);
      assert [s[0]] + s[1..] == s;
    }
  }

  /** A component without `%` decodes to itself. */
  lemma {:induction false} DecodePlain(s: string)
    requires '%' !in s
    ensures Decode(s) == Some(s)
    decreases |s|
  {
    if |s| > 0 {
      DecodePlain(s[1..]);
      assert [s[0]] + s[1..] == s;
    }
  }
}
